=== FILE: README.md ===
# Kotlin script runner — a verified model of its session logic

The modelled program is a small desktop front end for running Kotlin scripts. It
writes the editor's text to a temporary `.kts` file and starts
`kotlinc -script <file>`. It streams the process's stdout and stderr into one
output flow and tracks each run as an `ExecutionState` (`Initialized`,
`Running`, `Completed(exitCode)`, `Failed(cause)`). A single-instance supervisor
cancels the previous run whenever a new one starts. The window's decision logic sits on
top. A keyword highlighter is defined in ui/Highlight.kt, though nothing in the
window uses it.

This project models that logic as immutable Dafny datatypes and pure functions
and proves the following about them:

- the lifecycle of a session, as a step function over events;
- the one-slot supervisor and its invariant;
- command and temp-file construction;
- the two-stream output multiplexer;
- the keyword highlighter;
- the pure decisions of the main window.

Modules (one per component):

- `ScriptTypes` (`script_types.dfy`): `Script`, `Cause`, `ExecutionState`, `isSuccess`, and the lifecycle order `ValidTransition`/`IsLifecyclePath`.
- `Output` (`output.dfy`): the two readers feeding one channel. `IsInterleaving` says what the channel may hold. `Multiplex` picks the order nondeterministically.
- `Session` (`session.dfy`): `KotlinExecutionSession` as a record `{state, cancelled, readersStarted, waiterStarted, outputs}`.
  - `StartProcess` models `startProcess`.
  - `Step` models the events the session's jobs react to: a line read, end of stream, an interrupted read, a read error, process exit, and `cancel()`.
  - `cancelled` is "the session's coroutine scope has been cancelled". Coroutine cancellation is cooperative, and a reader blocked in `readLine` can still act after it. The model instead drops every event once the scope is cancelled.
- `Runner` (`runner.dfy`): `KotlinScriptRunner.startSession`. It builds the command and the temp-file name, and decides when the temp file is deleted.
- `Supervisor` (`supervisor.dfy`): `SingleInstanceScriptRunner`. It holds the sessions in the order they were issued and the index of the current one.
- `Highlight` (`highlight.dfy`): `KotlinHighlighter.highlight`. The result is the sequence of appended pieces, each marked styled or not.
- `App` (`app.dfy`): the pure decisions of the main window:
  - `isRunningOrInitialized`;
  - the Run-button guard composed with the supervisor and the runner;
  - the `runningReduce` transcript;
  - the message chosen for each state.
- `Decimal` (`decimal.dfy`): Kotlin's decimal printing of `Int`/`UInt` with its inverse. Temp-file names and the exit-code message use it.
- `Wrappers` (`wrappers.dfy`): `Option` for nullable references, `Result` for thrown exceptions.

Points where the code's behaviour is easy to misread, each modelled as written:

- `startProcess` writes `Running` before it tries to launch. A launch failure therefore goes `Initialized → Running → Failed`, so a subscriber can see `Running` before `Failed`.
- `cancel()` only cancels the coroutine scope. The code never destroys the process, so a cancelled script keeps running until it exits by itself. This is listed under Findings.
- Process exit cancels the scope. Lines a reader has not yet emitted at that point are dropped (`Session.ExitIsFinal`). This is listed under Findings.
- The temp file is deleted only when the waiter job completes. The `deleteIfExists` armed at KotlinScriptRunner.kt:28-30 shows the file is meant to be removed after the run, yet a failed launch leaves it behind. This is listed under Findings.

## Model

| member | source | states |
|---|---|---|
| ScriptTypes.IsSuccess | src/jvmMain/kotlin/script/ScriptRunner.kt:63 | A `Completed` state is a success iff it is `Completed(0)`. |
| ScriptTypes.ValidTransitionAdvances | src/jvmMain/kotlin/script/ScriptRunner.kt:50-61 | A lifecycle move never goes back; every real change strictly advances; a terminal state never moves. |
| ScriptTypes.PathMonotone | src/jvmMain/kotlin/script/ScriptRunner.kt:50-61 | Along a lifecycle path the rank never decreases, any change is a strict advance, and a terminal state is kept for good. |
| ScriptTypes.NoStateRevisited | src/jvmMain/kotlin/script/ScriptRunner.kt:50-61 | Once a lifecycle path has left a state it never returns to it. |
| Decimal.NatToString | src/jvmMain/kotlin/script/KotlinScriptRunner.kt:38 | Printing a `UInt` gives digits only, with no leading zero. |
| Decimal.ParseNatRoundTrip | src/jvmMain/kotlin/script/KotlinScriptRunner.kt:38 | Parsing the printed form of `n` gives back `n`. |
| Decimal.ParseNatSound | src/jvmMain/kotlin/script/KotlinScriptRunner.kt:38 | Every string the parser accepts is exactly the printed form of the number it returns. |
| Decimal.NatToStringInjective | src/jvmMain/kotlin/script/KotlinScriptRunner.kt:38 | Distinct numbers print differently. |
| Decimal.IntToString | src/jvmMain/kotlin/ui/App.kt:78 | The printed `Int` is non-empty and starts with `-` iff it is negative. |
| Decimal.ParseIntRoundTrip | src/jvmMain/kotlin/ui/App.kt:78 | A printed `Int`, negative ones included, parses back to the same number. |
| Output.ArrivalOrderIsInterleaving | src/jvmMain/kotlin/script/KotlinScriptRunner.kt:74-80 | For any arrival order, the channel holds an interleaving of the stdout lines and the stderr lines, each kept in its own order. |
| Output.InterleavingIsArrivalOrder | src/jvmMain/kotlin/script/KotlinScriptRunner.kt:74-80 | Conversely, every such interleaving arises from some arrival order. |
| Output.InterleavingLength | src/jvmMain/kotlin/script/KotlinScriptRunner.kt:97-102 | An interleaving loses and adds no line. |
| Output.InterleaveSnocLeft | src/jvmMain/kotlin/script/KotlinScriptRunner.kt:99-101 | A stdout line emitted next extends the interleaving. |
| Output.InterleaveSnocRight | src/jvmMain/kotlin/script/KotlinScriptRunner.kt:99-101 | A stderr line emitted next extends the interleaving. |
| Output.Multiplex | src/jvmMain/kotlin/script/KotlinScriptRunner.kt:74-80 | Draining both streams in any race order yields an order-preserving interleaving holding all lines. |
| Session.StartProcess | src/jvmMain/kotlin/script/KotlinScriptRunner.kt:59-95 | Demands `Initialized` and otherwise fails the `check`. Writes `Running` first. A launch failure writes `Failed(cause)`, returns no job and starts no reader or waiter. A successful launch starts both readers and the waiter and returns the job. It never touches the scope or the outputs. |
| Session.CancelSession | src/jvmMain/kotlin/script/KotlinScriptRunner.kt:111-113 | `cancel()` cancels the scope and leaves state, outputs and started jobs as they were. |
| Session.Step | src/jvmMain/kotlin/script/KotlinScriptRunner.kt:84-113 | After cancellation, events change neither state nor outputs. Every state change also cancels the scope. Outputs only grow. No event changes which jobs were launched. |
| Session.FreshWellformed | src/jvmMain/kotlin/script/KotlinScriptRunner.kt:52-55 | A new session is `Initialized` with no outputs and satisfies the session invariant. |
| Session.StartProcessLifecycle | src/jvmMain/kotlin/script/KotlinScriptRunner.kt:62-72 | Starting an `Initialized` session succeeds, keeps the invariant, and its writes follow the lifecycle. |
| Session.StepLifecycle | src/jvmMain/kotlin/script/KotlinScriptRunner.kt:84-113 | Every event keeps the invariant and makes a valid lifecycle move. |
| Session.RunWellformed | src/jvmMain/kotlin/script/KotlinScriptRunner.kt:84-113 | Any sequence of events keeps the session invariant. |
| Session.RunLifecycle | src/jvmMain/kotlin/script/KotlinScriptRunner.kt:84-113 | The states after each event form a lifecycle path. |
| Session.StartedLifecycle | src/jvmMain/kotlin/script/KotlinScriptRunner.kt:59-108 | Start a fresh session once, then feed it any events: every state it is ever in lies on one lifecycle path. |
| Session.CancelledIsFrozen | src/jvmMain/kotlin/script/KotlinScriptRunner.kt:88-91 | A session whose scope is cancelled keeps its state and outputs under every later event. |
| Session.CancelFreezes | src/jvmMain/kotlin/script/KotlinScriptRunner.kt:111-113 | `cancel()` is idempotent and never writes the state. Afterwards no event changes state or outputs, so `Completed` stays `Completed` and `Running` never completes. |
| Session.TerminalIsFinal | src/jvmMain/kotlin/script/KotlinScriptRunner.kt:84-108 | Once a well-formed session is terminal, its state never changes again. |
| Session.CancelLeavesProcessRunning | src/jvmMain/kotlin/script/KotlinScriptRunner.kt:82-113 | As written, after `cancel()` the session is cancelled and frozen. Yet until the script exits by itself, the process stays alive, meaning launched with no exit among the events. |
| Session.CancelSticks | src/jvmMain/kotlin/script/KotlinScriptRunner.kt:111-113 | Once `cancel()` has been called, the session stays cancelled under every later event. |
| Session.CorrectedCancelEndsProcess | src/jvmMain/kotlin/script/KotlinScriptRunner.kt:82-113 | With `destroy()` on scope cancellation, `cancel()` ends the process, and a live process always has an uncancelled session that saw no exit. |
| Session.RunOutputs | src/jvmMain/kotlin/script/KotlinScriptRunner.kt:97-102 | The published outputs are the lines of some prefix of the events, in order. While the readers are live, every line is published. |
| Session.StepOutputs | src/jvmMain/kotlin/script/KotlinScriptRunner.kt:99-101 | A live reader publishes exactly the line it read, and nothing for other events. |
| Session.ReadersNeverStart | src/jvmMain/kotlin/script/KotlinScriptRunner.kt:65-72 | A session whose readers never started publishes nothing, whatever happens. |
| Session.OutputsInterleaveStreams | src/jvmMain/kotlin/script/KotlinScriptRunner.kt:74-80 | A session's outputs are an interleaving of its accepted stdout and stderr lines, each in its own order. |
| Session.LaunchFailureIsFinal | src/jvmMain/kotlin/script/KotlinScriptRunner.kt:65-72 | After a failed launch the session is `Failed(cause)` with no outputs, whatever follows. |
| Session.ExitIsFinal | src/jvmMain/kotlin/script/KotlinScriptRunner.kt:84-91 | Process exit records `Completed(code)` with the code unchanged and cancels the scope. Nothing later changes state or outputs. |
| Session.ReadFailureVersusInterruption | src/jvmMain/kotlin/script/KotlinScriptRunner.kt:103-108 | A read error sets `Failed(cause)` and cancels the scope. An interrupted read changes nothing. |
| Session.HelloScenario | src/jvmMain/kotlin/script/KotlinScriptRunner.kt:74-91 | When the reader emits "hello" before the waiter sees the exit, printing "hello" and exiting 0 gives outputs `["hello"]` and `Completed(0)`. |
| Session.RunAppend | src/jvmMain/kotlin/script/KotlinScriptRunner.kt:74-113 | Running two event sequences one after the other is running their concatenation. |
| Session.LineAfterExitDropped | src/jvmMain/kotlin/script/KotlinScriptRunner.kt:84-101 | As written, once a live waiter sees the exit, no later line is published: the outputs stay what they were before the exit, and the state is `Completed(code)`. |
| Session.HelloAfterExitLost | src/jvmMain/kotlin/script/KotlinScriptRunner.kt:84-101 | As written, when the waiter sees exit 0 before the reader emits "hello", the outputs are empty and the state is `Completed(0)`. |
| Session.StepDrained | src/jvmMain/kotlin/script/KotlinScriptRunner.kt:84-91 | With draining readers, the exit records `Completed(code)` for a running session, publishes nothing, and leaves live readers live. Every other event is handled as by `Step`. |
| Session.DrainedPublishesAllLines | src/jvmMain/kotlin/script/KotlinScriptRunner.kt:74-101 | With draining readers and no cancel or read error, every emitted line is published in arrival order, before or after the exit. |
| Session.HelloScenarioDrained | src/jvmMain/kotlin/script/KotlinScriptRunner.kt:74-101 | With draining readers, "hello" is published and the state is `Completed(0)` in both orders of line and exit. |
| Session.SilentExitScenario | src/jvmMain/kotlin/script/KotlinScriptRunner.kt:82-91 | Exiting 1 with no output gives no outputs and `Completed(1)`. |
| Runner.TempFilename | src/jvmMain/kotlin/script/KotlinScriptRunner.kt:35-38 | A temp name starts with "temp", ends with ".kts" and has something in between. |
| Runner.KotlincPath | src/jvmMain/kotlin/script/KotlinScriptRunner.kt:36 | The kotlinc path is the `script.runner.kotlinc` property when set, and "kotlinc" otherwise. |
| Runner.Resolve | src/jvmMain/kotlin/script/KotlinScriptRunner.kt:22-27 | The resolved path starts with the directory and ends with exactly one separator followed by the name. |
| Runner.ResolveKeepsSeparatorsSingle | src/jvmMain/kotlin/script/KotlinScriptRunner.kt:22-27 | The root "/" gets no second separator, so a directory free of doubled separators gives a path free of them. |
| Runner.TempFilenameRoundTrip | src/jvmMain/kotlin/script/KotlinScriptRunner.kt:38 | The random number can be read back from the temp name. |
| Runner.ParseTempFilenameSound | src/jvmMain/kotlin/script/KotlinScriptRunner.kt:38 | Every name the reader accepts is the temp name of the number it returns. |
| Runner.TempFilenameInjective | src/jvmMain/kotlin/script/KotlinScriptRunner.kt:38 | Distinct random numbers give distinct temp names. |
| Runner.Prepare | src/jvmMain/kotlin/script/KotlinScriptRunner.kt:20-27 | The command is `[kotlinc path, "-script", temp path]`. The temp path is the temp name inside the temp directory. The file holds the script text. The session is started, well formed and uncancelled. |
| Runner.StartSession | src/jvmMain/kotlin/script/KotlinScriptRunner.kt:20-31 | A failed write throws before any session starts. Otherwise the started session is returned, and deletion is armed on the waiter job iff the launch succeeded. |
| Runner.CommandShape | src/jvmMain/kotlin/script/KotlinScriptRunner.kt:20-38 | The command is exactly the property value (default "kotlinc"), then "-script", then `<dir>/temp<n>.kts`. The name in it parses back to `n`. |
| Runner.LaunchedTempFileLifetime | src/jvmMain/kotlin/script/KotlinScriptRunner.kt:28-30 | After a successful launch, the temp file is deleted exactly when the session's scope has been cancelled. |
| Runner.WaiterStaysStarted | src/jvmMain/kotlin/script/KotlinScriptRunner.kt:82-91 | No event changes whether the waiter job was launched. |
| Runner.LaunchFailureLeaksTempFile | src/jvmMain/kotlin/script/KotlinScriptRunner.kt:28-30 | As written, after a failed launch the session is terminal forever, yet its temp file is never deleted. |
| Runner.StartSessionCorrected | src/jvmMain/kotlin/script/KotlinScriptRunner.kt:20-31 | Same as `StartSession`, except that a started session always has its temp file scheduled for deletion. |
| Runner.CorrectedAgreesOnSession | src/jvmMain/kotlin/script/KotlinScriptRunner.kt:20-31 | The correction differs from the code only in when the file is deleted. |
| Runner.CorrectedTempFileLifetime | src/jvmMain/kotlin/script/KotlinScriptRunner.kt:28-30 | With the correction, the temp file is deleted exactly when the session is terminal or cancelled. |
| Supervisor.StartSession | src/jvmMain/kotlin/script/ScriptRunner.kt:26-32 | Cancels the current session, if any, whatever the delegate answers, and changes no other session. On success the new session is installed as current and returned. If the delegate throws, the exception passes through and the old, now cancelled, session stays current. The invariant is kept. |
| Supervisor.Deliver | src/jvmMain/kotlin/script/ScriptRunner.kt:18-33 | An event inside one issued session changes only that session and keeps the supervisor invariant. |
| Supervisor.ApplyAll | src/jvmMain/kotlin/script/ScriptRunner.kt:17-32 | Any sequence of start requests and session events keeps the supervisor invariant. |
| Supervisor.InitHasNoSession | src/jvmMain/kotlin/script/ScriptRunner.kt:21 | A fresh supervisor has no current session. |
| Supervisor.CurrentState | src/jvmMain/kotlin/script/ScriptRunner.kt:21-24 | The current state is that of the latest session issued; it is `null` only before the first session. |
| Supervisor.EarlierSessionsCancelled | src/jvmMain/kotlin/script/ScriptRunner.kt:26-32 | Starting from a fresh supervisor, after any history every session issued before the current one has been cancelled. With no current session, none was ever issued. |
| Supervisor.StartLeavesOneLive | src/jvmMain/kotlin/script/ScriptRunner.kt:27 | After `startSession`, every previously issued session is cancelled. |
| Supervisor.StartKeepsStates | src/jvmMain/kotlin/script/ScriptRunner.kt:27 | `startSession` writes no session's state; cancelling does not make a session `Failed`. |
| Highlight.IndexOfSpace | src/jvmMain/kotlin/ui/Highlight.kt:23 | Returns -1 iff there is no space; otherwise the position of the first space. |
| Highlight.SplitCount | src/jvmMain/kotlin/ui/Highlight.kt:27 | The number of tokens is the number of spaces plus one. |
| Highlight.SplitTokensHaveNoSpace | src/jvmMain/kotlin/ui/Highlight.kt:27 | No token contains a space. |
| Highlight.Split | src/jvmMain/kotlin/ui/Highlight.kt:27 | Splitting gives at least one token, and joining the tokens with single spaces gives the source back. |
| Highlight.SplitJoin | src/jvmMain/kotlin/ui/Highlight.kt:27 | Splitting single-space-joined, space-free tokens gives the same tokens back. |
| Highlight.SplitCons | src/jvmMain/kotlin/ui/Highlight.kt:27 | The first token is everything before the first space. |
| Highlight.HighlightTokens | src/jvmMain/kotlin/ui/Highlight.kt:27-34 | There are two appended pieces per token. |
| Highlight.HighlightTokensAt | src/jvmMain/kotlin/ui/Highlight.kt:27-34 | Piece `2i` is token `i`, styled iff it is a keyword. Piece `2i+1` is an unstyled space. |
| Highlight.PlainTextTokens | src/jvmMain/kotlin/ui/Highlight.kt:27-34 | The text of the token pieces is the tokens joined by spaces, plus one trailing space. |
| Highlight.Highlight | src/jvmMain/kotlin/ui/Highlight.kt:22-35 | A source without a space comes back verbatim with nothing styled. Otherwise the text of the result is the source followed by one space. |
| Highlight.HighlightStyling | src/jvmMain/kotlin/ui/Highlight.kt:16-34 | There is one token segment per space-separated piece. Each is styled iff the whole token is one of the ten keywords, and is followed by an unstyled space. |
| Highlight.StyledIffKeyword | src/jvmMain/kotlin/ui/Highlight.kt:28-33 | When the source has a space, every segment is styled iff its text is a keyword. |
| Highlight.FirstSegment | src/jvmMain/kotlin/ui/Highlight.kt:27-33 | The first segment is the first token, styled iff it is a keyword. |
| Highlight.EmptyTokenUnstyled | src/jvmMain/kotlin/ui/Highlight.kt:27-33 | A double space yields an empty token, emitted unstyled. |
| Highlight.WholeTokenCaseSensitive | src/jvmMain/kotlin/ui/Highlight.kt:16-29 | Matching is case-sensitive and whole-token: neither "Val" nor "value" is styled. |
| Highlight.LoneKeywordUnstyled | src/jvmMain/kotlin/ui/Highlight.kt:23-29 | As written, a keyword alone is not styled, but the same keyword followed by a space and more is. |
| Highlight.HighlightCorrectedStyling | src/jvmMain/kotlin/ui/Highlight.kt:23-34 | With the no-space shortcut corrected, every segment is styled iff its text is a keyword, and the text is unchanged. The correction differs from the code only on a lone keyword. |
| App.IsRunningOrInitialized | src/jvmMain/kotlin/ui/App.kt:99 | `isRunningOrInitialized` holds iff there is a session and it is not terminal, so it is false for no session. |
| App.Button | src/jvmMain/kotlin/ui/App.kt:53-57 | The button shows progress iff there is a session and it has not reached a terminal state. |
| App.RunClick | src/jvmMain/kotlin/ui/App.kt:46-49 | A click asks for a new session iff the current state is neither `Initialized` nor `Running`; otherwise nothing changes. The supervisor invariant is kept. |
| App.RunClickSparesBusySessions | src/jvmMain/kotlin/ui/App.kt:47-48 | A click never cancels, or otherwise changes, a session that is `Initialized` or `Running`. |
| App.RunClickSupersedesSettled | src/jvmMain/kotlin/ui/App.kt:46-49 | A click that starts anything supersedes only an absent or terminal session. On success, the new session running the editor text becomes current. |
| App.ConcatSnoc | src/jvmMain/kotlin/ui/App.kt:62 | Adding a line appends it to the transcript. |
| App.ConcatPrefix | src/jvmMain/kotlin/ui/App.kt:61-63 | The transcript of fewer lines is a prefix of the transcript of more. |
| App.RunningReduce | src/jvmMain/kotlin/ui/App.kt:61-63 | There is one snapshot per line. Snapshot `i` is the plain concatenation of lines `0..i` with no separator, and each snapshot extends the previous one. |
| App.DisplayedTranscript | src/jvmMain/kotlin/ui/App.kt:61-84 | The value of one uninterrupted `runningReduce` subscription is the concatenation of all lines it received; with no session it is "". |
| App.ShowState | src/jvmMain/kotlin/ui/App.kt:68-81 | Only `Failed` replaces the transcript, with "Execution failed: \n" and the cause's message. The exit code is shown iff the state is `Completed` and not a success. Every other state (none, `Initialized`, `Running`, `Completed(0)`) shows the hint above the transcript. |
| App.HeaderText | src/jvmMain/kotlin/ui/App.kt:76-81 | The hint header is the fixed hint text. The exit-code header is "Exit code: " followed by the code, which parses back to the code. |
| App.CauseMessage | src/jvmMain/kotlin/ui/App.kt:71 | The failure message is the cause's message, or "" when there is no cause or it has no message. |

## Left out

- Process creation, `waitFor` and the stream readers are not modelled. The launch outcome, the exit code and each read line or read error are event inputs.
- Coroutine scheduling is reduced to a sequence of events. This covers dispatchers, `runInterruptible`, races between a read error and process exit, and the order of line events relative to exit. Anything after scope cancellation is dropped.
- `SharedFlow`/`StateFlow` semantics are not modelled: replay, conflation, and dropping emissions when there is no subscriber. `outputs` is what a subscriber present from the start receives, and `state` is the latest value written.
- File writing and deletion, `Random.nextUInt` and `System.getProperty` are inputs: a write error, a `UInt32` suffix, and an optional property value. `Path.resolve` and `absolutePathString` become `Runner.Resolve`: the directory is taken as an absolute, normalised path (no trailing separator except the root "/"); the current-directory prefix a relative path would get is not modelled, and the program passes the absolute `user.dir`. POSIX separators are assumed; on Windows `absolutePathString()` gives `\`.
- Supervisor.StartSession: requires the supervisor invariant `Valid`, which the code does not check. Every supervisor reachable from `Init` satisfies it (`Supervisor.ApplyAll`).
- Session.StartProcess: records whether a job is returned but not the command passed to `ProcessBuilder`. `processBuilder.start()` runs that command; its outcome is the `LaunchOutcome` input, and the command itself is stated by `Runner.CommandShape`.
- App.DisplayedTranscript: states the value of one uninterrupted `runningReduce` subscription. App.kt:61-63 builds a new flow on every recomposition, and `collectAsState` restarts on a new flow while keeping the remembered text; so the shown text can restart mid-run or carry over the previous session's text (run 1 prints "hello", run 2 exits 1 silently, and "hello" stays under "Exit code: 1"). Compose recomposition is not modelled.
- The `IOException` that the code lets escape from the click handler is reported as a value in `App.RunClick`.
- The highlighter's result is modelled as the list of appended pieces, not Compose's `AnnotatedString` span layout; `SpanStyle` values are not modelled.
- Compose layout, the `Main.kt` window, `log`/`println` and the preview are left out. They are UI and logging with no stateable behaviour.

## Findings

| source | as written | input that shows it | evidently intended | confidence | as-written member | corrected member |
|---|---|---|---|---|---|---|
| src/jvmMain/kotlin/ui/Highlight.kt:23-25 | A source without a space is appended verbatim and unstyled, even when it is a keyword. | `"val"` is left unstyled, but `"val x"` styles `val`. | Every token that is a keyword is styled, whether or not the source contains a space. | medium; not executed | Highlight.LoneKeywordUnstyled | Highlight.HighlightCorrectedStyling |
| src/jvmMain/kotlin/script/KotlinScriptRunner.kt:28-30 | The temp-file deletion hangs on the job that `startProcess` returns. That job is `null` when the launch fails. | A launch failure, such as `kotlinc` missing from the search path, leaves `temp<n>.kts` on disk for good. | The `deleteIfExists` armed on completion shows the file is meant to go once the run is over, failed launches included. | medium; not executed | Runner.LaunchFailureLeaksTempFile | Runner.CorrectedTempFileLifetime |
| src/jvmMain/kotlin/script/KotlinScriptRunner.kt:82-113 | `cancel()` only cancels the scope. `runInterruptible` interrupts the thread in `waitFor`, but nothing calls `destroy()` on the process. | A script with an endless loop whose session is cancelled, by `cancel()` or by a read error that cancels the scope, keeps running after the session has stopped watching it. | `cancel()` is the way to stop a run, so cancelling the scope is meant to end the process. | medium; not executed | Session.CancelLeavesProcessRunning | Session.CorrectedCancelEndsProcess |
| src/jvmMain/kotlin/script/KotlinScriptRunner.kt:86-91 | Once the waiter sees the exit, `invokeOnCompletion { scope.cancel() }` cancels the readers too, even if lines are still in the pipes or in `_outputs.emit`. | A script that prints "hello" and exits at once: if `waitFor` returns before the stdout reader emits, "hello" is never published. | Everything the script printed is shown, so the readers are meant to drain the pipes before the scope goes. | medium; not executed | Session.LineAfterExitDropped | Session.DrainedPublishesAllLines |

=== FILE: app.dfy ===
/** The decisions the main window makes (ui/App.kt), without the Compose
    layout: whether a session counts as busy, what a click on Run does, how
    the output lines become the transcript, and which message is shown for
    which state. */
module App {
  import opened Wrappers
  import opened ScriptTypes
  import opened Decimal
  import Session
  import Runner
  import Supervisor

  /** `ExecutionState?.isRunningOrInitialized()`: busy exactly while a
      session exists and has not settled; `null` (no session) is not busy. */
  function IsRunningOrInitialized(st: Option<ExecutionState>): (busy: bool)
    ensures busy <==> st.Some? && !st.value.IsTerminal()
  {
    st.Some? && (st.value.Initialized? || st.value.Running?)
  }

  /** The Run button shows a progress indicator instead of "Run!" while busy. */
  datatype ButtonFace = Progress | RunLabel

  function Button(st: Option<ExecutionState>): (face: ButtonFace)
    ensures face.Progress? <==> st.Some? && !st.value.IsTerminal()
  {
    if IsRunningOrInitialized(st) then Progress else RunLabel
  }

  datatype Click = Click(sup: Supervisor.Supervisor, started: Option<Result<Supervisor.SessionId, Cause>>)

  /** A click on Run with the editor holding `source`: unless the current
      session is busy, ask the supervisor for a new session, built by the
      runner from `env`. The delegate's exception (the temp file could not be
      written) is reported in `started`. */
  function RunClick(sup: Supervisor.Supervisor, cfg: Runner.Config, source: string, env: Runner.Environment): (c: Click)
    requires Supervisor.Valid(sup)
    ensures Supervisor.Valid(c.sup)
    ensures c.started.Some? <==> !IsRunningOrInitialized(Supervisor.CurrentState(sup))
    ensures c.started.None? ==> c.sup == sup
  {
    if IsRunningOrInitialized(Supervisor.CurrentState(sup)) then Click(sup, None)
    else
      var made := match Runner.StartSession(cfg, Script(source), env)
        case Success(l) => Success(l.session)
        case Failure(e) => Failure(e);
      var o := Supervisor.StartSession(sup, made);
      Click(o.sup, Some(o.result))
  }

  /** A click never cancels, or otherwise touches, a session that is
      `Initialized` or `Running`. */
  lemma RunClickSparesBusySessions(sup: Supervisor.Supervisor, cfg: Runner.Config, source: string, env: Runner.Environment)
    requires Supervisor.Valid(sup)
    ensures var c := RunClick(sup, cfg, source, env);
      forall i :: 0 <= i < |sup.sessions| && (sup.sessions[i].state.Initialized? || sup.sessions[i].state.Running?)
        ==> c.sup.sessions[i] == sup.sessions[i]
  {
  }

  /** A click that starts anything supersedes only an absent or settled
      session; when the runner succeeds, the new session becomes current and
      runs the editor's text. */
  lemma RunClickSupersedesSettled(sup: Supervisor.Supervisor, cfg: Runner.Config, source: string, env: Runner.Environment)
    requires Supervisor.Valid(sup)
    ensures var c := RunClick(sup, cfg, source, env);
      c.started.Some? ==> sup.current.None? || sup.sessions[sup.current.value].state.IsTerminal()
    ensures var c := RunClick(sup, cfg, source, env);
      c.started.Some? && env.writeError.None? ==>
        && c.sup.current == Some(|sup.sessions|)
        && c.sup.sessions[|sup.sessions|]
           == Runner.StartSession(cfg, Script(source), env).value.session
  {
  }

  /** The lines concatenated with no separator. */
  function Concat(lines: seq<string>): string
  {
    if |lines| == 0 then "" else lines[0] + Concat(lines[1..])
  }

  lemma {:induction false} ConcatSnoc(lines: seq<string>, x: string)
    ensures Concat(lines + [x]) == Concat(lines) + x
    decreases |lines|
  {
    if |lines| == 0 {
      assert lines + [x] == [x];
      assert [x][1..] == [];
    } else {
      assert (lines + [x])[1..] == lines[1..] + [x];
      ConcatSnoc(lines[1..], x);
    }
  }

  lemma {:induction false} ConcatPrefix(lines: seq<string>, i: nat, j: nat)
    requires i <= j <= |lines|
    ensures Concat(lines[..i]) <= Concat(lines[..j])
    decreases j - i
  {
    if i < j {
      ConcatPrefix(lines, i, j - 1);
      assert lines[..j] == lines[..j - 1] + [lines[j - 1]];
      ConcatSnoc(lines[..j - 1], lines[j - 1]);
    }
  }

  /** `outputs.runningReduce { acc, value -> acc + "" + value }`: one
      snapshot of the transcript per received line. Each snapshot is the
      concatenation of the lines so far and extends the one before. */
  method RunningReduce(lines: seq<string>) returns (snapshots: seq<string>)
    ensures |snapshots| == |lines|
    ensures forall i :: 0 <= i < |lines| ==> snapshots[i] == Concat(lines[..i + 1])
    ensures forall i, j :: 0 <= i <= j < |lines| ==> snapshots[i] <= snapshots[j]
  {
    snapshots := [];
    var acc := "";
    var k := 0;
    while k < |lines|
      invariant 0 <= k <= |lines|
      invariant |snapshots| == k
      invariant acc == Concat(lines[..k])
      invariant forall i :: 0 <= i < k ==> snapshots[i] == Concat(lines[..i + 1])
    {
      assert lines[..k + 1] == lines[..k] + [lines[k]];
      ConcatSnoc(lines[..k], lines[k]);
      acc := if k == 0 then lines[k] else acc + "" + lines[k];
      snapshots := snapshots + [acc];
      k := k + 1;
    }
    forall i, j | 0 <= i <= j < |lines|
      ensures snapshots[i] <= snapshots[j]
    {
      ConcatPrefix(lines, i + 1, j + 1);
    }
  }

  /** The value of one uninterrupted `runningReduce` subscription to a
      session's outputs: its last snapshot, "" before the first line
      arrives, and "" when there is no session at all. */
  method DisplayedTranscript(outputs: Option<seq<string>>) returns (text: string)
    ensures outputs.None? ==> text == ""
    ensures outputs.Some? ==> text == Concat(outputs.value)
  {
    text := "";
    if outputs.Some? {
      var snapshots := RunningReduce(outputs.value);
      if |snapshots| > 0 {
        text := snapshots[|snapshots| - 1];
        assert outputs.value[..|outputs.value|] == outputs.value;
      }
    }
  }

  const FailedHeader: string := "Execution failed: \n"
  const ExitCodeHeader: string := "Exit code: "
  const Placeholder: string := "Click 'Run!' to execute the script and see live output here"

  /** The line above the transcript: the exit code, or the hint to click Run. */
  datatype Header = ExitCode(code: Int32) | Hint

  /** The header's text. The exit code is printed as Kotlin prints an
      `Int` and can be read back from the text unchanged. */
  function HeaderText(h: Header): (text: string)
    ensures h.Hint? ==> text == Placeholder
    ensures h.ExitCode? ==>
      && ExitCodeHeader <= text
      && ParseInt(text[|ExitCodeHeader|..]) == Some(h.code as int)
  {
    match h
    case ExitCode(code) =>
      ParseIntRoundTrip(code);
      assert (ExitCodeHeader + IntToString(code))[|ExitCodeHeader|..] == IntToString(code);
      ExitCodeHeader + IntToString(code)
    case Hint => Placeholder
  }

  /** The output area: a failure text alone, or a header above the transcript. */
  datatype Panel = FailurePanel(text: string) | OutputPanel(header: Header, transcript: string)

  /** `exception?.message.orEmpty()`: the cause's message, or "" when there
      is no cause or it has no message. */
  function CauseMessage(cause: Option<Cause>): (m: string)
    ensures cause.Some? && cause.value.message.Some? ==> m == cause.value.message.value
    ensures cause.None? || cause.value.message.None? ==> m == ""
  {
    match cause
    case None => ""
    case Some(c) => c.message.GetOr("")
  }

  /** The panel shown for the current state. Only a failed session hides the
      transcript, behind the fixed header and the cause's message; the exit
      code is shown exactly for a completed, unsuccessful session; every
      other state (none, `Initialized`, `Running`, `Completed(0)`) shows the
      hint to click Run above the transcript. */
  function ShowState(st: Option<ExecutionState>, transcript: string): (p: Panel)
    ensures p.FailurePanel? <==> st.Some? && st.value.Failed?
    ensures p.FailurePanel? ==> p.text == FailedHeader + CauseMessage(st.value.cause)
    ensures p.OutputPanel? ==> p.transcript == transcript
    ensures p.OutputPanel? && p.header.ExitCode? <==> st.Some? && st.value.Completed? && !IsSuccess(st.value)
    ensures p.OutputPanel? && p.header.ExitCode? ==> p.header.code == st.value.exitCode
    ensures p == OutputPanel(Hint, transcript)
      <==> (st.None? || st.value.Initialized? || st.value.Running? || (st.value.Completed? && IsSuccess(st.value)))
  {
    match st
    case Some(Failed(cause)) => FailurePanel(FailedHeader + CauseMessage(cause))
    case Some(Completed(code)) =>
      if code != 0 then OutputPanel(ExitCode(code), transcript) else OutputPanel(Hint, transcript)
    case _ => OutputPanel(Hint, transcript)
  }
}

=== FILE: decimal.dfy ===
/** Decimal rendering of integers, as Kotlin's string templates print an
    `Int` or a `UInt`, together with the parser that undoes it. */
module Decimal {
  import opened Wrappers

  predicate IsDigit(c: char) {
    '0' <= c <= '9'
  }

  function DigitValue(c: char): nat
    requires IsDigit(c)
  {
    c as int - '0' as int
  }

  function DigitChar(d: nat): char
    requires d < 10
  {
    ('0' as int + d) as char
  }

  predicate AllDigits(s: string) {
    forall i :: 0 <= i < |s| ==> IsDigit(s[i])
  }

  /** The shape Kotlin prints a non-negative number in: at least one digit,
      and no leading zero unless the number is zero itself. */
  predicate IsCanonical(s: string) {
    |s| > 0 && AllDigits(s) && (s[0] == '0' ==> |s| == 1)
  }

  /** `n.toString()` for a non-negative number. */
  function NatToString(n: nat): (s: string)
    ensures IsCanonical(s)
    decreases n
  {
    if n < 10 then [DigitChar(n)]
    else NatToString(n / 10) + [DigitChar(n % 10)]
  }

  /** The number a string of digits denotes. */
  function ValueOf(s: string): nat
    requires AllDigits(s)
    decreases |s|
  {
    if |s| == 0 then 0 else ValueOf(s[..|s| - 1]) * 10 + DigitValue(s[|s| - 1])
  }

  /** Reads back a canonical decimal string; anything else is rejected. */
  function ParseNat(s: string): (r: Option<nat>)
    ensures r.Some? <==> IsCanonical(s)
  {
    if IsCanonical(s) then Some(ValueOf(s)) else None
  }

  lemma {:induction false} ValueOfNatToString(n: nat)
    ensures ValueOf(NatToString(n)) == n
    decreases n
  {
    if n >= 10 {
      var p := NatToString(n / 10);
      var s := p + [DigitChar(n % 10)];
      assert s[..|s| - 1] == p;
      ValueOfNatToString(n / 10);
    }
  }

  lemma {:induction false} LeadingDigitPositive(s: string)
    requires |s| > 0 && AllDigits(s) && s[0] != '0'
    ensures ValueOf(s) >= 1
    decreases |s|
  {
    if |s| > 1 {
      var p := s[..|s| - 1];
      assert p[0] == s[0];
      LeadingDigitPositive(p);
    }
  }

  lemma {:induction false} NatToStringOfValue(s: string)
    requires IsCanonical(s)
    ensures NatToString(ValueOf(s)) == s
    decreases |s|
  {
    var d := DigitValue(s[|s| - 1]);
    assert DigitChar(d) == s[|s| - 1];
    if |s| == 1 {
      assert ValueOf(s[..0]) == 0;
      assert NatToString(ValueOf(s)) == [s[0]];
    } else {
      var p := s[..|s| - 1];
      assert p[0] == s[0];
      assert IsCanonical(p);
      LeadingDigitPositive(p);
      NatToStringOfValue(p);
      var n := ValueOf(s);
      assert n == ValueOf(p) * 10 + d;
      assert n / 10 == ValueOf(p) && n % 10 == d;
      assert s == p + [s[|s| - 1]];
    }
  }

  /** Printing then parsing gives the number back. */
  lemma ParseNatRoundTrip(n: nat)
    ensures ParseNat(NatToString(n)) == Some(n)
  {
    ValueOfNatToString(n);
  }

  /** Whatever the parser accepts is exactly the printed form of its result. */
  lemma ParseNatSound(s: string, n: nat)
    requires ParseNat(s) == Some(n)
    ensures NatToString(n) == s
  {
    NatToStringOfValue(s);
  }

  lemma NatToStringInjective(m: nat, n: nat)
    requires NatToString(m) == NatToString(n)
    ensures m == n
  {
    ParseNatRoundTrip(m);
    ParseNatRoundTrip(n);
  }

  /** `i.toString()` for a Kotlin `Int`: a minus sign before negative values. */
  function IntToString(i: int): (s: string)
    ensures |s| > 0
    ensures s[0] == '-' <==> i < 0
  {
    if i < 0 then "-" + NatToString(-i) else NatToString(i)
  }

  function ParseInt(s: string): Option<int>
  {
    if |s| > 0 && s[0] == '-' then
      match ParseNat(s[1..])
      case Some(n) => if n == 0 then None else var v: int := n; Some(-v)
      case None => None
    else
      match ParseNat(s)
      case Some(n) => Some(n)
      case None => None
  }

  lemma ParseIntRoundTrip(i: int)
    ensures ParseInt(IntToString(i)) == Some(i)
  {
    var s := IntToString(i);
    if i < 0 {
      assert s[1..] == NatToString(-i);
      ParseNatRoundTrip(-i);
    } else {
      ParseNatRoundTrip(i);
    }
  }
}

=== FILE: highlight.dfy ===
/** `KotlinHighlighter.highlight` (ui/Highlight.kt). The annotated string it
    builds is kept as the sequence of pieces appended to it, each with
    whether it carries the keyword style. */
module Highlight {

  const Keywords: seq<string> := [
    "val", "var", "class", "interface",
    "is", "as", "in",
    "for", "if", "while"
  ]

  datatype Segment = Segment(text: string, styled: bool)

  /** The text of an annotated string, styles dropped. */
  function PlainText(segs: seq<Segment>): string
  {
    if |segs| == 0 then "" else segs[0].text + PlainText(segs[1..])
  }

  function CountSpaces(s: string): nat
  {
    multiset(s)[' ']
  }

  /** `s.indexOf(' ')`: the first space, or -1. */
  function IndexOfSpace(s: string): (i: int)
    ensures -1 <= i < |s|
    ensures i == -1 <==> ' ' !in s
    ensures i >= 0 ==> s[i] == ' ' && forall k :: 0 <= k < i ==> s[k] != ' '
  {
    if |s| == 0 then -1
    else if s[0] == ' ' then 0
    else
      var j := IndexOfSpace(s[1..]);
      if j < 0 then -1 else j + 1
  }

  /** `s.splitToSequence(' ')`: the pieces between single spaces, empty ones
      included, so there is one more token than there are spaces. */
  function Split(s: string): (tokens: seq<string>)
    ensures |tokens| > 0
    ensures Join(tokens) == s
    decreases |s|
  {
    var i := IndexOfSpace(s);
    if i < 0 then [s]
    else
      var rest := Split(s[i + 1..]);
      assert s == s[..i] + " " + s[i + 1..];
      assert ([s[..i]] + rest)[1..] == rest;
      [s[..i]] + rest
  }

  /** There is one token more than there are spaces. */
  lemma {:induction false} SplitCount(s: string)
    ensures |Split(s)| == CountSpaces(s) + 1
    decreases |s|
  {
    var i := IndexOfSpace(s);
    if i >= 0 {
      SplitCount(s[i + 1..]);
      var pre, post := s[..i], s[i + 1..];
      assert s == pre + [' '] + post;
      assert multiset(s) == multiset(pre) + multiset([' ']) + multiset(post);
      assert multiset(pre)[' '] == 0;
    } else {
      assert multiset(s)[' '] == 0;
    }
  }

  /** No token holds a space. */
  lemma {:induction false} SplitTokensHaveNoSpace(s: string)
    ensures forall t :: t in Split(s) ==> ' ' !in t
    decreases |s|
  {
    var i := IndexOfSpace(s);
    if i >= 0 {
      SplitTokensHaveNoSpace(s[i + 1..]);
    }
  }

  /** The tokens put back together with one space between neighbours. */
  function Join(tokens: seq<string>): string
    requires |tokens| > 0
  {
    if |tokens| == 1 then tokens[0] else tokens[0] + " " + Join(tokens[1..])
  }

  /** Splitting a token, a space and the rest gives the token, then the
      split of the rest. */
  lemma SplitCons(t0: string, rest: string)
    requires ' ' !in t0
    ensures Split(t0 + " " + rest) == [t0] + Split(rest)
  {
    var s := t0 + " " + rest;
    assert s[..|t0|] == t0 && s[|t0|] == ' ';
    IndexOfSpaceAt(s, |t0|);
    assert s[|t0| + 1..] == rest;
  }

  lemma {:induction false} SplitJoin(tokens: seq<string>)
    requires |tokens| > 0
    requires forall t :: t in tokens ==> ' ' !in t
    ensures Split(Join(tokens)) == tokens
    decreases |tokens|
  {
    assert tokens[0] in tokens;
    if |tokens| > 1 {
      assert forall t :: t in tokens[1..] ==> t in tokens;
      SplitJoin(tokens[1..]);
      SplitCons(tokens[0], Join(tokens[1..]));
    }
  }

  lemma IndexOfSpaceAt(s: string, i: nat)
    requires i < |s| && s[i] == ' ' && forall k :: 0 <= k < i ==> s[k] != ' '
    ensures IndexOfSpace(s) == i
  {
  }

  /** The appended pieces for a run of tokens: each token, styled iff it is
      a keyword, then one unstyled space. */
  function HighlightTokens(tokens: seq<string>): (segs: seq<Segment>)
    ensures |segs| == 2 * |tokens|
  {
    if |tokens| == 0 then []
    else [Segment(tokens[0], tokens[0] in Keywords), Segment(" ", false)] + HighlightTokens(tokens[1..])
  }

  /** `highlight` as written: an empty source, or one without a space, is
      appended verbatim and unstyled; otherwise each token is appended,
      styled iff it is a keyword, followed by a space, so the text is the
      source plus one trailing space. */
  function Highlight(source: string): (segs: seq<Segment>)
    ensures ' ' !in source ==> PlainText(segs) == source && forall seg :: seg in segs ==> !seg.styled
    ensures ' ' in source ==> PlainText(segs) == source + " "
  {
    if |source| == 0 || IndexOfSpace(source) == -1 then
      assert [Segment(source, false)][1..] == [];
      [Segment(source, false)]
    else
      PlainTextTokens(Split(source));
      HighlightTokens(Split(source))
  }

  /** Token `i` sits at position `2 * i`, styled iff it is a keyword, and
      the space after it at `2 * i + 1`. */
  lemma {:induction false} HighlightTokensAt(tokens: seq<string>, i: nat)
    requires i < |tokens|
    ensures HighlightTokens(tokens)[2 * i] == Segment(tokens[i], tokens[i] in Keywords)
    ensures HighlightTokens(tokens)[2 * i + 1] == Segment(" ", false)
    decreases i
  {
    if i > 0 {
      HighlightTokensAt(tokens[1..], i - 1);
    }
  }

  lemma {:induction false} PlainTextTokens(tokens: seq<string>)
    requires |tokens| > 0
    ensures PlainText(HighlightTokens(tokens)) == Join(tokens) + " "
    decreases |tokens|
  {
    var segs := HighlightTokens(tokens);
    var rest := HighlightTokens(tokens[1..]);
    assert segs[1..][1..] == rest;
    assert PlainText(segs) == tokens[0] + (" " + PlainText(rest));
    if |tokens| > 1 {
      PlainTextTokens(tokens[1..]);
    } else {
      assert rest == [];
    }
  }

  /** Token by token: one token segment per space-separated piece, styled
      exactly when the whole token, case and all, is one of the keywords;
      every other segment is an unstyled space. */
  lemma HighlightStyling(source: string)
    requires ' ' in source
    ensures var segs := Highlight(source);
      var tokens := Split(source);
      && |segs| == 2 * |tokens|
      && (forall i :: 0 <= i < |tokens| ==> segs[2 * i].text == tokens[i] && (segs[2 * i].styled <==> tokens[i] in Keywords))
      && (forall i :: 0 <= i < |tokens| ==> segs[2 * i + 1] == Segment(" ", false))
  {
    var tokens := Split(source);
    forall i | 0 <= i < |tokens|
      ensures Highlight(source)[2 * i] == Segment(tokens[i], tokens[i] in Keywords)
      ensures Highlight(source)[2 * i + 1] == Segment(" ", false)
    {
      HighlightTokensAt(tokens, i);
    }
  }

  /** Wherever it sits, a segment is styled exactly when its text is a
      keyword; spaces and empty tokens never are. */
  lemma {:induction false} StyledIffKeyword(source: string)
    requires ' ' in source
    ensures forall seg :: seg in Highlight(source) ==> (seg.styled <==> seg.text in Keywords)
  {
    var segs := Highlight(source);
    var tokens := Split(source);
    forall seg | seg in segs
      ensures seg.styled <==> seg.text in Keywords
    {
      var k :| 0 <= k < |segs| && segs[k] == seg;
      var i := k / 2;
      HighlightTokensAt(tokens, i);
      assert k == 2 * i || k == 2 * i + 1;
      assert " " !in Keywords;
    }
  }

  /** The first segment of a source with a space is its first token,
      styled iff that token is a keyword. */
  lemma FirstSegment(t0: string, rest: string)
    requires ' ' !in t0
    ensures Highlight(t0 + " " + rest)[0] == Segment(t0, t0 in Keywords)
  {
    var s := t0 + " " + rest;
    assert s[|t0|] == ' ';
    SplitCons(t0, rest);
    HighlightTokensAt(Split(s), 0);
  }

  /** Consecutive spaces give an empty token, which is emitted unstyled. */
  lemma EmptyTokenUnstyled(a: string, b: string)
    requires ' ' !in a && ' ' !in b
    ensures Split(a + "  " + b) == [a, "", b]
    ensures |Highlight(a + "  " + b)| == 6
    ensures Highlight(a + "  " + b)[2] == Segment("", false)
  {
    var s := a + "  " + b;
    assert s == a + " " + ("" + " " + b);
    assert s[|a|] == ' ';
    SplitCons("", b);
    SplitCons(a, "" + " " + b);
    assert "" !in Keywords;
    HighlightTokensAt(Split(s), 1);
  }

  /** Matching is case-sensitive and whole-token: neither "Val" nor
      "value" is styled. */
  lemma WholeTokenCaseSensitive(rest: string)
    ensures Highlight("Val" + " " + rest)[0] == Segment("Val", false)
    ensures Highlight("value" + " " + rest)[0] == Segment("value", false)
  {
    assert "Val" !in Keywords && ' ' !in "Val";
    assert "value" !in Keywords && ' ' !in "value";
    FirstSegment("Val", rest);
    FirstSegment("value", rest);
  }

  /** As written, a keyword on its own is not styled, although the same
      keyword followed by a space and anything else is. */
  lemma LoneKeywordUnstyled(k: string, rest: string)
    requires k in Keywords
    ensures Highlight(k) == [Segment(k, false)]
    ensures Highlight(k + " " + rest)[0] == Segment(k, true)
  {
    assert ' ' !in k;
    FirstSegment(k, rest);
  }

  /** The highlighter with the no-space shortcut styling its one token like
      any other. */
  function HighlightCorrected(source: string): seq<Segment>
  {
    if |source| == 0 || IndexOfSpace(source) == -1 then [Segment(source, source in Keywords)]
    else HighlightTokens(Split(source))
  }

  /** With the correction every source is styled token by token: a segment
      is styled exactly when its text is a keyword, and the text is still
      the verbatim source, or the source plus one space. */
  lemma HighlightCorrectedStyling(source: string)
    ensures forall seg :: seg in HighlightCorrected(source) ==> (seg.styled <==> seg.text in Keywords)
    ensures ' ' !in source ==> PlainText(HighlightCorrected(source)) == source
    ensures ' ' in source ==> PlainText(HighlightCorrected(source)) == source + " "
    ensures HighlightCorrected(source) == Highlight(source) <==> (' ' in source || source !in Keywords)
  {
    if ' ' in source {
      StyledIffKeyword(source);
      assert HighlightCorrected(source) == Highlight(source);
    } else {
      assert HighlightCorrected(source)[1..] == [];
    }
  }
}

=== FILE: output.dfy ===
/** The output multiplexer of a session: two readers, one per process
    stream, each forwarding its lines in order onto one shared channel
    (script/KotlinScriptRunner.kt, `listenOutput` and the two reader jobs).
    Which reader gets to the channel first is not determined, so the
    channel carries some interleaving of the two streams. */
module Output {

  datatype Stream = Stdout | Stderr

  /** One line read by the reader of `stream`, in the order lines reach the channel. */
  datatype Emission = Emission(stream: Stream, line: string)

  /** The channel's contents: every emitted line in arrival order. */
  function Texts(es: seq<Emission>): seq<string>
  {
    if |es| == 0 then [] else [es[0].line] + Texts(es[1..])
  }

  /** The lines one stream produced, in that stream's own order. */
  function Lines(es: seq<Emission>, stream: Stream): seq<string>
  {
    if |es| == 0 then []
    else if es[0].stream == stream then [es[0].line] + Lines(es[1..], stream)
    else Lines(es[1..], stream)
  }

  /** `m` is a merge of `a` and `b` that keeps the order within each of them. */
  predicate IsInterleaving(m: seq<string>, a: seq<string>, b: seq<string>)
    decreases |m|
  {
    if |m| == 0 then a == [] && b == []
    else
      || (|a| > 0 && a[0] == m[0] && IsInterleaving(m[1..], a[1..], b))
      || (|b| > 0 && b[0] == m[0] && IsInterleaving(m[1..], a, b[1..]))
  }

  lemma {:induction false} InterleavingLength(m: seq<string>, a: seq<string>, b: seq<string>)
    requires IsInterleaving(m, a, b)
    ensures |m| == |a| + |b|
    decreases |m|
  {
    if |m| > 0 {
      if |a| > 0 && a[0] == m[0] && IsInterleaving(m[1..], a[1..], b) {
        InterleavingLength(m[1..], a[1..], b);
      } else {
        InterleavingLength(m[1..], a, b[1..]);
      }
    }
  }

  /** Whatever order the two readers reach the channel in, the channel holds
      an interleaving of the stdout lines and the stderr lines. */
  lemma {:induction false} ArrivalOrderIsInterleaving(es: seq<Emission>)
    ensures IsInterleaving(Texts(es), Lines(es, Stdout), Lines(es, Stderr))
    decreases |es|
  {
    if |es| > 0 {
      ArrivalOrderIsInterleaving(es[1..]);
    }
  }

  /** Conversely, every interleaving is the channel content of some arrival
      order: the model rules out no interleaving. */
  lemma {:induction false} InterleavingIsArrivalOrder(m: seq<string>, a: seq<string>, b: seq<string>)
    returns (es: seq<Emission>)
    requires IsInterleaving(m, a, b)
    ensures Texts(es) == m && Lines(es, Stdout) == a && Lines(es, Stderr) == b
    decreases |m|
  {
    if |m| == 0 {
      es := [];
    } else if |a| > 0 && a[0] == m[0] && IsInterleaving(m[1..], a[1..], b) {
      var rest := InterleavingIsArrivalOrder(m[1..], a[1..], b);
      es := [Emission(Stdout, m[0])] + rest;
      assert es[1..] == rest;
    } else {
      var rest := InterleavingIsArrivalOrder(m[1..], a, b[1..]);
      es := [Emission(Stderr, m[0])] + rest;
      assert es[1..] == rest;
    }
  }

  lemma {:induction false} InterleaveSnocLeft(m: seq<string>, a: seq<string>, b: seq<string>, x: string)
    requires IsInterleaving(m, a, b)
    ensures IsInterleaving(m + [x], a + [x], b)
    decreases |m|
  {
    if |m| == 0 {
      assert (m + [x])[1..] == [] && (a + [x])[1..] == [];
    } else if |a| > 0 && a[0] == m[0] && IsInterleaving(m[1..], a[1..], b) {
      InterleaveSnocLeft(m[1..], a[1..], b, x);
      assert (m + [x])[1..] == m[1..] + [x];
      assert (a + [x])[1..] == a[1..] + [x];
    } else {
      InterleaveSnocLeft(m[1..], a, b[1..], x);
      assert (m + [x])[1..] == m[1..] + [x];
    }
  }

  lemma {:induction false} InterleaveSnocRight(m: seq<string>, a: seq<string>, b: seq<string>, x: string)
    requires IsInterleaving(m, a, b)
    ensures IsInterleaving(m + [x], a, b + [x])
    decreases |m|
  {
    if |m| == 0 {
      assert (m + [x])[1..] == [] && (b + [x])[1..] == [];
    } else if |a| > 0 && a[0] == m[0] && IsInterleaving(m[1..], a[1..], b) {
      InterleaveSnocRight(m[1..], a[1..], b, x);
      assert (m + [x])[1..] == m[1..] + [x];
    } else {
      InterleaveSnocRight(m[1..], a, b[1..], x);
      assert (m + [x])[1..] == m[1..] + [x];
      assert (b + [x])[1..] == b[1..] + [x];
    }
  }

  /** The two readers draining `out` and `err` onto one channel. At each
      step either reader with a line left may win the race; the choice is
      left open. */
  method Multiplex(out: seq<string>, err: seq<string>) returns (channel: seq<string>)
    ensures IsInterleaving(channel, out, err)
    ensures |channel| == |out| + |err|
  {
    channel := [];
    var i, j := 0, 0;
    while i < |out| || j < |err|
      invariant 0 <= i <= |out| && 0 <= j <= |err|
      invariant IsInterleaving(channel, out[..i], err[..j])
      decreases |out| - i + |err| - j
    {
      var fromStdout: bool;
      if i == |out| {
        fromStdout := false;
      } else if j == |err| {
        fromStdout := true;
      } else {
        fromStdout := *;
      }
      if fromStdout {
        InterleaveSnocLeft(channel, out[..i], err[..j], out[i]);
        assert out[..i + 1] == out[..i] + [out[i]];
        channel := channel + [out[i]];
        i := i + 1;
      } else {
        InterleaveSnocRight(channel, out[..i], err[..j], err[j]);
        assert err[..j + 1] == err[..j] + [err[j]];
        channel := channel + [err[j]];
        j := j + 1;
      }
    }
    assert out[..i] == out && err[..j] == err;
    InterleavingLength(channel, out, err);
  }
}

=== FILE: runner.dfy ===
/** `KotlinScriptRunner.startSession` (script/KotlinScriptRunner.kt): write
    the script to a fresh temp file, build the `kotlinc -script <file>`
    command, start a session on it, and delete the temp file once the
    session's waiter job has completed. File writing and deletion,
    `Random.nextUInt` and `System.getProperty` are inputs here: the random
    suffix, whether the write failed, and the property value. */
module Runner {
  import opened Wrappers
  import opened ScriptTypes
  import opened Decimal
  import Session

  /** A Kotlin `UInt`. */
  type UInt32 = n: nat | n < 0x1_0000_0000

  const DefaultKotlinc: string := "kotlinc"
  const ScriptFlag: string := "-script"
  /** Named `TEMP_FILE_SUFFIX` in the source, though it starts the name. */
  const TempPrefix: string := "temp"
  const TempExtension: string := ".kts"

  /** `KOTLINC_PATH`: the `script.runner.kotlinc` property, else "kotlinc". */
  function KotlincPath(property: Option<string>): (path: string)
    ensures property.Some? ==> path == property.value
    ensures property.None? ==> path == DefaultKotlinc
  {
    property.GetOr(DefaultKotlinc)
  }

  /** `getNextTempFilename()` for the random number `n`. */
  function TempFilename(n: UInt32): (name: string)
    ensures |name| > |TempPrefix| + |TempExtension|
    ensures name[..|TempPrefix|] == TempPrefix
    ensures name[|name| - |TempExtension|..] == TempExtension
  {
    TempPrefix + NatToString(n) + TempExtension
  }

  /** Recognises the names `TempFilename` produces and recovers the number. */
  function ParseTempFilename(name: string): Option<UInt32>
  {
    if && |name| >= |TempPrefix| + |TempExtension|
       && name[..|TempPrefix|] == TempPrefix
       && name[|name| - |TempExtension|..] == TempExtension
    then
      match ParseNat(name[|TempPrefix|..|name| - |TempExtension|])
      case Some(n) => if n < 0x1_0000_0000 then Some(n) else None
      case None => None
    else None
  }

  lemma TempFilenameRoundTrip(n: UInt32)
    ensures ParseTempFilename(TempFilename(n)) == Some(n)
  {
    var name := TempFilename(n);
    assert name[|TempPrefix|..|name| - |TempExtension|] == NatToString(n);
    ParseNatRoundTrip(n);
  }

  lemma ParseTempFilenameSound(name: string, n: UInt32)
    requires ParseTempFilename(name) == Some(n)
    ensures TempFilename(n) == name
  {
    var digits := name[|TempPrefix|..|name| - |TempExtension|];
    ParseNatSound(digits, n);
    assert name == name[..|TempPrefix|] + digits + name[|name| - |TempExtension|..];
  }

  /** Distinct random numbers give distinct file names. */
  lemma TempFilenameInjective(m: UInt32, n: UInt32)
    requires TempFilename(m) == TempFilename(n)
    ensures m == n
  {
    TempFilenameRoundTrip(m);
    TempFilenameRoundTrip(n);
  }

  /** Two separators in a row, which a normalised path never holds. */
  predicate NoDoubleSeparator(p: string)
  {
    forall i :: 0 <= i < |p| - 1 ==> !(p[i] == '/' && p[i + 1] == '/')
  }

  /** `tempDir.resolve(name).absolutePathString()` for an absolute, normalised
      `tempDir`: the name after one separator. Only the root "/" already ends
      in a separator, and none is added after it. */
  function Resolve(dir: string, name: string): (path: string)
    ensures |path| > |name| && path[|path| - |name| - 1] == '/'
    ensures path[|path| - |name|..] == name
    ensures dir <= path
  {
    if |dir| > 0 && dir[|dir| - 1] == '/' then dir + name else dir + "/" + name
  }

  /** Resolving never doubles a separator: the root gets none added. */
  lemma ResolveKeepsSeparatorsSingle(dir: string, name: string)
    requires NoDoubleSeparator(dir) && '/' !in name
    ensures NoDoubleSeparator(Resolve(dir, name))
  {
  }

  datatype Config = Config(tempDir: string, kotlincProperty: Option<string>)

  /** What the outside world does during one call: the random suffix, the
      `IOException` the temp-file write throws (if any), and the launch. */
  datatype Environment = Environment(
    suffix: UInt32,
    writeError: Option<Cause>,
    launch: Session.LaunchOutcome)

  /** When the temp file goes away: never, once the waiter job completes, or
      at once. */
  datatype Cleanup = NeverDeleted | OnWaiterCompletion | DeletedNow

  /** A started session with the command it was given and its temp file. */
  datatype Launch = Launch(
    session: Session.Session,
    command: seq<string>,
    tempPath: string,
    tempContent: string,
    cleanup: Cleanup)

  /** The waiter job has completed: it was launched and the scope is gone
      (the process exited, a read failed, or the session was cancelled). */
  predicate WaiterCompleted(s: Session.Session)
  {
    s.waiterStarted && s.cancelled
  }

  /** Whether the temp file of `l` has been deleted once the session is `now`. */
  predicate TempFileDeleted(l: Launch, now: Session.Session)
  {
    l.cleanup.DeletedNow? || (l.cleanup.OnWaiterCompletion? && WaiterCompleted(now))
  }

  /** The session, command and temp file of one call, given how launching
      went and which cleanup is armed. */
  function Prepare(cfg: Config, script: Script, suffix: UInt32, launch: Session.LaunchOutcome,
                   cleanup: Cleanup): (l: Launch)
    ensures l.command == [KotlincPath(cfg.kotlincProperty), ScriptFlag, l.tempPath]
    ensures l.tempPath == Resolve(cfg.tempDir, TempFilename(suffix))
    ensures l.tempContent == script.content
    ensures Session.Wellformed(l.session) && !l.session.cancelled && l.session.outputs == []
    ensures launch.Launched? ==> l.session.state == Running && l.session.waiterStarted
    ensures launch.LaunchFailed? ==>
      l.session.state == Failed(Some(launch.cause)) && !l.session.readersStarted && !l.session.waiterStarted
  {
    var path := Resolve(cfg.tempDir, TempFilename(suffix));
    var started := Session.StartProcess(Session.Fresh, launch).value;
    Launch(started.session, [KotlincPath(cfg.kotlincProperty), ScriptFlag, path], path, script.content, cleanup)
  }

  /** `KotlinScriptRunner.startSession` as written: a failed write throws
      before anything starts; otherwise the session is started and the file
      deletion is attached to the waiter job, which exists only if the
      launch succeeded. */
  function StartSession(cfg: Config, script: Script, env: Environment): (r: Result<Launch, Cause>)
    ensures r.Failure? <==> env.writeError.Some?
    ensures r.Failure? ==> r.error == env.writeError.value
    ensures r.Success? ==> r.value == Prepare(cfg, script, env.suffix, env.launch, r.value.cleanup)
    ensures r.Success? ==> (r.value.cleanup.OnWaiterCompletion? <==> env.launch.Launched?)
    ensures r.Success? ==> !r.value.cleanup.DeletedNow?
  {
    match env.writeError
    case Some(e) => Failure(e)
    case None =>
      Success(Prepare(cfg, script, env.suffix, env.launch,
                      if env.launch.Launched? then OnWaiterCompletion else NeverDeleted))
  }

  /** The command is the kotlinc path (the property, else "kotlinc"),
      "-script", and the absolute path of a file named temp<n>.kts holding
      the script. */
  lemma CommandShape(cfg: Config, script: Script, env: Environment)
    requires env.writeError.None?
    ensures StartSession(cfg, script, env).Success?
    ensures var l := StartSession(cfg, script, env).value;
      && |l.command| == 3
      && l.command[0] == (if cfg.kotlincProperty.Some? then cfg.kotlincProperty.value else "kotlinc")
      && l.command[1] == "-script"
      && l.command[2] == Resolve(cfg.tempDir, "temp" + NatToString(env.suffix) + ".kts")
      && cfg.tempDir <= l.command[2]
      && |l.command[2]| > |TempFilename(env.suffix)|
      && ParseTempFilename(l.command[2][|l.command[2]| - |TempFilename(env.suffix)|..]) == Some(env.suffix)
      && l.tempContent == script.content
  {
    TempFilenameRoundTrip(env.suffix);
  }

  /** As written, once launched the temp file is deleted exactly when the
      session's scope has been cancelled, whatever happens in between. */
  lemma {:induction false} LaunchedTempFileLifetime(cfg: Config, script: Script, env: Environment, es: seq<Session.Event>)
    requires env.writeError.None? && env.launch.Launched?
    ensures StartSession(cfg, script, env).Success?
    ensures var l := StartSession(cfg, script, env).value;
      var now := Session.Run(l.session, es);
      TempFileDeleted(l, now) <==> now.cancelled
  {
    var l := StartSession(cfg, script, env).value;
    WaiterStaysStarted(l.session, es);
  }

  lemma {:induction false} WaiterStaysStarted(s: Session.Session, es: seq<Session.Event>)
    ensures Session.Run(s, es).waiterStarted == s.waiterStarted
    decreases |es|
  {
    if |es| > 0 {
      WaiterStaysStarted(Session.Step(s, es[0]), es[1..]);
    }
  }

  /** As written, a launch failure leaves the session `Failed` for good, yet
      its temp file is never deleted. */
  lemma LaunchFailureLeaksTempFile(cfg: Config, script: Script, suffix: UInt32, cause: Cause, es: seq<Session.Event>)
    ensures StartSession(cfg, script, Environment(suffix, None, Session.LaunchFailed(cause))).Success?
    ensures var l := StartSession(cfg, script, Environment(suffix, None, Session.LaunchFailed(cause))).value;
      var now := Session.Run(l.session, es);
      now.state.IsTerminal() && !TempFileDeleted(l, now)
  {
    var l := StartSession(cfg, script, Environment(suffix, None, Session.LaunchFailed(cause))).value;
    Session.TerminalIsFinal(l.session, es);
  }

  /** The start with the cleanup the `deleteIfExists` armed at KotlinScriptRunner.kt:28-30
      evidently intends, extended to a failed launch: that deletes the temp
      file at once, a launched one on waiter completion. */
  function StartSessionCorrected(cfg: Config, script: Script, env: Environment): (r: Result<Launch, Cause>)
    ensures r.Failure? <==> env.writeError.Some?
    ensures r.Failure? ==> r.error == env.writeError.value
    ensures r.Success? ==> r.value == Prepare(cfg, script, env.suffix, env.launch, r.value.cleanup)
    ensures r.Success? ==> !r.value.cleanup.NeverDeleted?
  {
    match env.writeError
    case Some(e) => Failure(e)
    case None =>
      Success(Prepare(cfg, script, env.suffix, env.launch,
                      if env.launch.Launched? then OnWaiterCompletion else DeletedNow))
  }

  /** The correction changes nothing but the cleanup. */
  lemma CorrectedAgreesOnSession(cfg: Config, script: Script, env: Environment)
    ensures StartSessionCorrected(cfg, script, env).Failure? <==> StartSession(cfg, script, env).Failure?
    ensures StartSessionCorrected(cfg, script, env).Success? ==>
      StartSessionCorrected(cfg, script, env).value.(cleanup := NeverDeleted)
      == StartSession(cfg, script, env).value.(cleanup := NeverDeleted)
  {
  }

  /** With the correction, for every run of the session the temp file is
      deleted exactly when the session has settled or been cancelled. */
  lemma {:induction false} CorrectedTempFileLifetime(cfg: Config, script: Script, env: Environment, es: seq<Session.Event>)
    requires env.writeError.None?
    ensures StartSessionCorrected(cfg, script, env).Success?
    ensures var l := StartSessionCorrected(cfg, script, env).value;
      var now := Session.Run(l.session, es);
      TempFileDeleted(l, now) <==> now.state.IsTerminal() || now.cancelled
  {
    var l := StartSessionCorrected(cfg, script, env).value;
    var now := Session.Run(l.session, es);
    WaiterStaysStarted(l.session, es);
    Session.RunWellformed(l.session, es);
    if env.launch.LaunchFailed? {
      Session.TerminalIsFinal(l.session, es);
    }
  }
}

=== FILE: script_types.dfy ===
/** The values shared by every part of the runner (script/ScriptRunner.kt):
    the submitted script, the failure cause, and the closed lifecycle type
    `ExecutionState` together with the order its variants are visited in. */
module ScriptTypes {
  import opened Wrappers

  /** A Kotlin `Int`; exit codes are passed through unchanged. */
  type Int32 = x: int | -0x8000_0000 <= x < 0x8000_0000

  /** The script submitted for execution: its source text and nothing else. */
  datatype Script = Script(content: string)

  /** A `Throwable` as far as anything here looks at it: its optional message. */
  datatype Cause = Cause(message: Option<string>)

  /** `ExecutionState`: exactly four variants; only `Completed` carries an exit
      code and only `Failed` carries a (nullable) cause. */
  datatype ExecutionState =
    | Initialized
    | Running
    | Completed(exitCode: Int32)
    | Failed(cause: Option<Cause>)
  {
    predicate IsTerminal() {
      Completed? || Failed?
    }
  }

  /** `ExecutionState.Completed.isSuccess`: the one successful state is
      `Completed(0)`. */
  function IsSuccess(s: ExecutionState): (ok: bool)
    requires s.Completed?
    ensures ok <==> s == Completed(0)
  {
    s.exitCode == 0
  }

  /** The position of a state along the lifecycle Initialized, Running, terminal. */
  function Rank(s: ExecutionState): nat
  {
    match s
    case Initialized => 0
    case Running => 1
    case Completed(_) => 2
    case Failed(_) => 2
  }

  /** One observable move of a session's state: stay put, start running, or
      settle from Running into a terminal state. Terminal states never move. */
  predicate ValidTransition(a: ExecutionState, b: ExecutionState)
  {
    a == b || (a.Initialized? && b.Running?) || (a.Running? && b.IsTerminal())
  }

  /** A sequence of states in which every neighbour pair is a valid transition. */
  predicate IsLifecyclePath(p: seq<ExecutionState>)
  {
    forall i :: 0 <= i < |p| - 1 ==> ValidTransition(p[i], p[i + 1])
  }

  /** A valid transition never goes back, and every real change moves forward. */
  lemma ValidTransitionAdvances(a: ExecutionState, b: ExecutionState)
    requires ValidTransition(a, b)
    ensures Rank(a) <= Rank(b)
    ensures a != b ==> Rank(a) < Rank(b)
    ensures a.IsTerminal() ==> b == a
  {
  }

  /** Along a lifecycle path the rank never decreases, a state once left is
      never seen again, and a terminal state is kept for good. */
  lemma {:induction false} PathMonotone(p: seq<ExecutionState>, i: nat, j: nat)
    requires IsLifecyclePath(p)
    requires i <= j < |p|
    ensures Rank(p[i]) <= Rank(p[j])
    ensures p[i] != p[j] ==> Rank(p[i]) < Rank(p[j])
    ensures p[i].IsTerminal() ==> p[j] == p[i]
    decreases j - i
  {
    if i < j {
      PathMonotone(p, i, j - 1);
      assert ValidTransition(p[j - 1], p[j]);
      ValidTransitionAdvances(p[j - 1], p[j]);
    }
  }

  /** No state is revisited: once a path has moved away from `p[i]`, it
      never comes back to it. */
  lemma NoStateRevisited(p: seq<ExecutionState>, i: nat, k: nat, j: nat)
    requires IsLifecyclePath(p)
    requires i < k <= j < |p|
    requires p[k] != p[i]
    ensures p[j] != p[i]
  {
    PathMonotone(p, i, k);
    PathMonotone(p, k, j);
  }
}

=== FILE: session.dfy ===
/** One execution session (`KotlinExecutionSession` in
    script/KotlinScriptRunner.kt) as an immutable record and a step function.

    The coroutine machinery is reduced to flags: `readersStarted` and
    `waiterStarted` say whether the two `listenOutput` jobs and the `waitFor`
    job were launched, and `cancelled` says whether the session's scope has
    been cancelled. Coroutine cancellation is cooperative, so a reader blocked
    in `readLine` may still act after it; the model chooses to drop every
    event that would be handled by one of those jobs once `cancelled` holds. */
module Session {
  import opened Wrappers
  import opened ScriptTypes
  import Output

  datatype Session = Session(
    state: ExecutionState,
    cancelled: bool,
    readersStarted: bool,
    waiterStarted: bool,
    outputs: seq<string>)

  /** A freshly constructed session: `Initialized`, nothing launched. */
  const Fresh: Session := Session(Initialized, false, false, false, [])

  /** What `processBuilder.start()` did. */
  datatype LaunchOutcome = Launched | LaunchFailed(cause: Cause)

  /** `check(state.value == Initialized)` throwing `IllegalStateException`. */
  datatype StartError = IllegalState

  /** The result of `startProcess`: the session afterwards, the states written
      in order, and whether a waiter `Job` was returned (non-null). */
  datatype Started = Started(session: Session, written: seq<ExecutionState>, job: bool)

  /** `startProcess`: demands `Initialized`, writes `Running` before trying to
      launch, then either records the launch failure and returns no job, or
      launches both readers and the waiter and returns the waiter job. The
      state writes do not look at the scope, so they happen even on a session
      whose scope is already cancelled. */
  function StartProcess(s: Session, launch: LaunchOutcome): (r: Result<Started, StartError>)
    ensures r.Failure? <==> !s.state.Initialized?
    ensures r.Success? ==> |r.value.written| > 0 && r.value.written[0] == Running
    ensures r.Success? ==> r.value.session.state == r.value.written[|r.value.written| - 1]
    ensures r.Success? ==> (r.value.job <==> launch.Launched?)
    ensures r.Success? && launch.Launched? ==>
      r.value.session.readersStarted && r.value.session.waiterStarted
    ensures r.Success? && launch.LaunchFailed? ==>
      r.value.session.readersStarted == s.readersStarted && r.value.session.waiterStarted == s.waiterStarted
    ensures r.Success? && launch.LaunchFailed? ==>
      r.value.written == [Running, Failed(Some(launch.cause))]
    ensures r.Success? && launch.Launched? ==> r.value.written == [Running]
    ensures r.Success? ==> r.value.session.cancelled == s.cancelled
    ensures r.Success? ==> r.value.session.outputs == s.outputs
  {
    if !s.state.Initialized? then Failure(IllegalState)
    else
      match launch
      case LaunchFailed(cause) =>
        Success(Started(s.(state := Failed(Some(cause))), [Running, Failed(Some(cause))], false))
      case Launched =>
        Success(Started(s.(state := Running, readersStarted := true, waiterStarted := true), [Running], true))
  }

  /** Everything that can happen to a started session, one at a time. */
  datatype Event =
    | Line(emission: Output.Emission)          // a reader read a line and emits it
    | ReaderFinished(stream: Output.Stream)    // a reader hit end of stream
    | ReaderInterrupted(stream: Output.Stream) // a blocked read ended by cancellation
    | ReadError(stream: Output.Stream, cause: Cause)
    | ProcessExited(code: Int32)
    | Cancel                                   // `ExecutionSession.cancel()`

  predicate ReadersLive(s: Session) {
    s.readersStarted && !s.cancelled
  }

  predicate WaiterLive(s: Session) {
    s.waiterStarted && !s.cancelled
  }

  /** `cancel()`: cancels the scope and never writes the state. */
  function CancelSession(s: Session): (r: Session)
    ensures r.cancelled
    ensures r.state == s.state && r.outputs == s.outputs
    ensures r.readersStarted == s.readersStarted && r.waiterStarted == s.waiterStarted
  {
    s.(cancelled := true)
  }

  /** How one event changes a session. A line is appended to the outputs by a
      live reader; a read error marks the session `Failed` and cancels the
      scope; an interrupted read or end of stream changes nothing; the
      process exit, seen by a live waiter, marks it `Completed` with the exit
      code as given and then cancels the scope. */
  function Step(s: Session, e: Event): (r: Session)
    ensures s.cancelled ==> r.cancelled && r.state == s.state && r.outputs == s.outputs
    ensures r.state != s.state ==> r.cancelled && !s.cancelled
    ensures s.outputs <= r.outputs
    ensures r.readersStarted == s.readersStarted && r.waiterStarted == s.waiterStarted
  {
    match e
    case Line(em) => if ReadersLive(s) then s.(outputs := s.outputs + [em.line]) else s
    case ReaderFinished(_) => s
    case ReaderInterrupted(_) => s
    case ReadError(_, cause) =>
      if ReadersLive(s) then s.(state := Failed(Some(cause)), cancelled := true) else s
    case ProcessExited(code) =>
      if WaiterLive(s) then s.(state := Completed(code), cancelled := true) else s
    case Cancel => CancelSession(s)
  }

  function Run(s: Session, es: seq<Event>): Session
    decreases |es|
  {
    if |es| == 0 then s else Run(Step(s, es[0]), es[1..])
  }

  /** The state after each event of a run. */
  function History(s: Session, es: seq<Event>): (h: seq<ExecutionState>)
    ensures |h| == |es|
    decreases |es|
  {
    if |es| == 0 then [] else [Step(s, es[0]).state] + History(Step(s, es[0]), es[1..])
  }

  /** The lines carried by the line events of a run, in order. */
  function Emitted(es: seq<Event>): seq<Output.Emission>
  {
    if |es| == 0 then []
    else if es[0].Line? then [es[0].emission] + Emitted(es[1..])
    else Emitted(es[1..])
  }

  /** What holds of every session reachable from `Fresh` through
      `StartProcess` and events. */
  predicate Wellformed(s: Session)
  {
    && s.readersStarted == s.waiterStarted
    && (s.state.Initialized? ==> !s.waiterStarted)
    && (s.state.Running? ==> s.waiterStarted)
    && (WaiterLive(s) ==> s.state.Running?)
    && (!s.readersStarted ==> s.outputs == [])
  }

  lemma FreshWellformed()
    ensures Wellformed(Fresh) && Fresh.state == Initialized && Fresh.outputs == []
  {
  }

  /** Starting keeps a session well formed and writes its states along the lifecycle. */
  lemma StartProcessLifecycle(s: Session, launch: LaunchOutcome)
    requires Wellformed(s) && s.state.Initialized?
    ensures StartProcess(s, launch).Success?
    ensures Wellformed(StartProcess(s, launch).value.session)
    ensures IsLifecyclePath([s.state] + StartProcess(s, launch).value.written)
  {
  }

  /** Every event keeps a session well formed and moves its state along a
      valid transition. */
  lemma StepLifecycle(s: Session, e: Event)
    requires Wellformed(s)
    ensures Wellformed(Step(s, e))
    ensures ValidTransition(s.state, Step(s, e).state)
  {
  }

  lemma {:induction false} RunWellformed(s: Session, es: seq<Event>)
    requires Wellformed(s)
    ensures Wellformed(Run(s, es))
    decreases |es|
  {
    if |es| > 0 {
      StepLifecycle(s, es[0]);
      RunWellformed(Step(s, es[0]), es[1..]);
    }
  }

  /** The states a run passes through form a lifecycle path. */
  lemma {:induction false} RunLifecycle(s: Session, es: seq<Event>)
    requires Wellformed(s)
    ensures IsLifecyclePath([s.state] + History(s, es))
    decreases |es|
  {
    if |es| > 0 {
      var t := Step(s, es[0]);
      StepLifecycle(s, es[0]);
      RunLifecycle(t, es[1..]);
      var q := [t.state] + History(t, es[1..]);
      assert [s.state] + History(s, es) == [s.state] + q;
      forall i | 0 <= i < |q|
        ensures ValidTransition(([s.state] + q)[i], ([s.state] + q)[i + 1])
      {
        if i > 0 {
          assert ValidTransition(q[i - 1], q[i]);
        }
      }
    }
  }

  /** Starting a fresh session once and then feeding it any events visits
      its states along a single lifecycle path: Initialized, Running, and at
      most one terminal state. */
  lemma StartedLifecycle(launch: LaunchOutcome, es: seq<Event>)
    ensures StartProcess(Fresh, launch).Success?
    ensures IsLifecyclePath([Initialized] + StartProcess(Fresh, launch).value.written
                            + History(StartProcess(Fresh, launch).value.session, es))
  {
    var st := StartProcess(Fresh, launch).value;
    StartProcessLifecycle(Fresh, launch);
    RunLifecycle(st.session, es);
    var p := [Initialized] + st.written;
    var q := [st.session.state] + History(st.session, es);
    assert p[|p| - 1] == st.session.state;
    var whole := [Initialized] + st.written + History(st.session, es);
    assert whole == p + q[1..];
    forall i | 0 <= i < |whole| - 1
      ensures ValidTransition(whole[i], whole[i + 1])
    {
      if i < |p| - 1 {
        assert whole[i] == p[i] && whole[i + 1] == p[i + 1];
      } else {
        assert whole[i] == q[i - |p| + 1] && whole[i + 1] == q[i - |p| + 2];
      }
    }
  }

  /** A cancelled session is frozen: no event changes its state or outputs. */
  lemma {:induction false} CancelledIsFrozen(s: Session, es: seq<Event>)
    requires s.cancelled
    ensures Run(s, es).state == s.state
    ensures Run(s, es).outputs == s.outputs
    ensures Run(s, es).cancelled
    decreases |es|
  {
    if |es| > 0 {
      CancelledIsFrozen(Step(s, es[0]), es[1..]);
    }
  }

  /** `cancel()` is idempotent and leaves the state as it was; afterwards the
      state never changes, so a `Completed` session stays `Completed` and a
      `Running` one never completes. */
  lemma CancelFreezes(s: Session, es: seq<Event>)
    ensures CancelSession(CancelSession(s)) == CancelSession(s)
    ensures Run(CancelSession(s), es).state == s.state
    ensures Run(CancelSession(s), es).outputs == s.outputs
  {
    CancelledIsFrozen(CancelSession(s), es);
  }

  /** Whether the child process is still alive after `es`, as the operating
      system sees it rather than the session: it lives from a successful
      launch until it exits by itself. `ProcessExited` stands for that exit
      even when the cancelled session drops it. Nothing calls `destroy()`,
      so `Cancel` does not end the process. */
  function ProcessAlive(launched: bool, es: seq<Event>): bool
  {
    launched && !exists i :: 0 <= i < |es| && es[i].ProcessExited?
  }

  /** As written, cancelling a launched session leaves the process running:
      the session is cancelled and frozen, yet until the script exits by
      itself the process is alive, whatever else happens. The first two
      facts are derived from `Step`; the third follows from the definition
      of `ProcessAlive` alone, which is where "nothing calls `destroy()`" is
      stated. */
  lemma CancelLeavesProcessRunning(s: Session, es: seq<Event>)
    requires s.waiterStarted
    requires forall i :: 0 <= i < |es| ==> !es[i].ProcessExited?
    ensures Run(s, [Cancel] + es).cancelled
    ensures Run(s, [Cancel] + es).state == s.state
    ensures ProcessAlive(s.waiterStarted, [Cancel] + es)
  {
    assert ([Cancel] + es)[1..] == es;
    CancelledIsFrozen(CancelSession(s), es);
  }

  /** Once a `Cancel` has happened the session's scope stays cancelled. */
  lemma {:induction false} CancelSticks(s: Session, es: seq<Event>)
    requires Cancel in es
    ensures Run(s, es).cancelled
    decreases |es|
  {
    if es[0] == Cancel {
      CancelledIsFrozen(Step(s, es[0]), es[1..]);
    } else {
      assert Cancel in es[1..];
      CancelSticks(Step(s, es[0]), es[1..]);
    }
  }

  /** The process with `destroy()` called when the session's scope is
      cancelled: it lives only while it has neither exited nor been
      abandoned by its session. */
  function ProcessAliveCorrected(s: Session, es: seq<Event>): (alive: bool)
  {
    ProcessAlive(s.waiterStarted, es) && !Run(s, es).cancelled
  }

  /** With the correction, `cancel()` ends the process, and a live process
      always has a live, uncancelled session watching it. */
  lemma CorrectedCancelEndsProcess(s: Session, es: seq<Event>)
    ensures Cancel in es ==> !ProcessAliveCorrected(s, es)
    ensures ProcessAliveCorrected(s, es) ==>
      && s.waiterStarted
      && !Run(s, es).cancelled
      && forall i :: 0 <= i < |es| ==> !es[i].ProcessExited?
  {
    if Cancel in es {
      CancelSticks(s, es);
    }
  }

  /** A well-formed session in a terminal state keeps that state for good. */
  lemma {:induction false} TerminalIsFinal(s: Session, es: seq<Event>)
    requires Wellformed(s) && s.state.IsTerminal()
    ensures Run(s, es).state == s.state
    decreases |es|
  {
    if |es| > 0 {
      StepLifecycle(s, es[0]);
      TerminalIsFinal(Step(s, es[0]), es[1..]);
    }
  }

  lemma {:induction false} TextsAppend(a: seq<Output.Emission>, b: seq<Output.Emission>)
    ensures Output.Texts(a + b) == Output.Texts(a) + Output.Texts(b)
    decreases |a|
  {
    if |a| > 0 {
      assert (a + b)[0] == a[0];
      assert (a + b)[1..] == a[1..] + b;
      TextsAppend(a[1..], b);
    } else {
      assert a + b == b;
    }
  }

  /** The outputs a run publishes are the lines of some prefix of its events,
      in order: every line before the scope is cancelled, none after. */
  lemma {:induction false} RunOutputs(s: Session, es: seq<Event>) returns (k: nat)
    ensures k <= |es|
    ensures Run(s, es).outputs == s.outputs + Output.Texts(Emitted(es[..k]))
    ensures ReadersLive(Run(s, es)) ==> k == |es|
    decreases |es|
  {
    if |es| == 0 {
      k := 0;
    } else if !ReadersLive(s) {
      k := 0;
      if s.cancelled {
        CancelledIsFrozen(s, es);
      } else {
        ReadersNeverStart(s, es);
      }
    } else {
      var k' := RunOutputs(Step(s, es[0]), es[1..]);
      k := k' + 1;
      EmittedPrefix(es, k');
      TextsAppend(Emitted([es[0]]), Emitted(es[1..][..k']));
      StepOutputs(s, es[0]);
    }
  }

  lemma EmittedPrefix(es: seq<Event>, k: nat)
    requires k < |es|
    ensures Emitted(es[..k + 1]) == Emitted([es[0]]) + Emitted(es[1..][..k])
  {
    assert es[..k + 1][1..] == es[1..][..k];
    assert [es[0]][1..] == [];
  }

  /** A live reader publishes exactly the line an event carries. */
  lemma StepOutputs(s: Session, e: Event)
    requires ReadersLive(s)
    ensures Step(s, e).outputs == s.outputs + Output.Texts(Emitted([e]))
  {
    assert [e][1..] == [];
  }

  /** A session whose readers never started publishes nothing, whatever happens. */
  lemma {:induction false} ReadersNeverStart(s: Session, es: seq<Event>)
    requires !s.readersStarted
    ensures Run(s, es).outputs == s.outputs
    ensures !Run(s, es).readersStarted
    decreases |es|
  {
    if |es| > 0 {
      ReadersNeverStart(Step(s, es[0]), es[1..]);
    }
  }

  /** The published outputs interleave the stdout lines and the stderr lines
      of the accepted prefix, each in its own emission order. */
  lemma OutputsInterleaveStreams(s: Session, es: seq<Event>)
    ensures exists k ::
      && 0 <= k <= |es|
      && Run(s, es).outputs == s.outputs + Output.Texts(Emitted(es[..k]))
      && Output.IsInterleaving(Output.Texts(Emitted(es[..k])),
                               Output.Lines(Emitted(es[..k]), Output.Stdout),
                               Output.Lines(Emitted(es[..k]), Output.Stderr))
  {
    var k := RunOutputs(s, es);
    Output.ArrivalOrderIsInterleaving(Emitted(es[..k]));
  }

  /** A process that cannot be launched ends `Failed` with its cause, never
      publishes a line, and nothing that happens afterwards changes that. */
  lemma LaunchFailureIsFinal(cause: Cause, es: seq<Event>)
    ensures StartProcess(Fresh, LaunchFailed(cause)).Success?
    ensures Run(StartProcess(Fresh, LaunchFailed(cause)).value.session, es).state == Failed(Some(cause))
    ensures Run(StartProcess(Fresh, LaunchFailed(cause)).value.session, es).outputs == []
  {
    var s := StartProcess(Fresh, LaunchFailed(cause)).value.session;
    TerminalIsFinal(s, es);
    ReadersNeverStart(s, es);
  }

  /** Process exit records the exit code unchanged and cancels the scope, so
      nothing that arrives later (not even a line still in a reader's buffer)
      reaches the session. */
  lemma ExitIsFinal(s: Session, code: Int32, es: seq<Event>)
    requires WaiterLive(s)
    ensures Step(s, ProcessExited(code)).cancelled
    ensures Run(Step(s, ProcessExited(code)), es).state == Completed(code)
    ensures Run(Step(s, ProcessExited(code)), es).outputs == s.outputs
  {
    CancelledIsFrozen(Step(s, ProcessExited(code)), es);
  }

  /** A read error fails the session and cancels its scope; an interrupted
      read leaves it exactly as it was. */
  lemma ReadFailureVersusInterruption(s: Session, stream: Output.Stream, cause: Cause)
    requires ReadersLive(s)
    ensures Step(s, ReadError(stream, cause)).state == Failed(Some(cause))
    ensures Step(s, ReadError(stream, cause)).cancelled
    ensures Step(s, ReaderInterrupted(stream)) == s
  {
  }

  /** A script printing "hello" and exiting 0, when the reader emits
      "hello" before the waiter sees the exit. */
  lemma HelloScenario()
    ensures StartProcess(Fresh, Launched).Success?
    ensures var r := Run(StartProcess(Fresh, Launched).value.session,
                         [Line(Output.Emission(Output.Stdout, "hello")), ProcessExited(0)]);
            r.outputs == ["hello"] && r.state == Completed(0)
  {
  }

  /** A script exiting 1 without output. */
  lemma SilentExitScenario()
    ensures StartProcess(Fresh, Launched).Success?
    ensures var r := Run(StartProcess(Fresh, Launched).value.session, [ProcessExited(1)]);
            r.outputs == [] && r.state == Completed(1)
  {
  }

  /** Running two event sequences one after the other. */
  lemma {:induction false} RunAppend(s: Session, a: seq<Event>, b: seq<Event>)
    ensures Run(s, a + b) == Run(Run(s, a), b)
    decreases |a|
  {
    if |a| == 0 {
      assert a + b == b;
    } else {
      assert (a + b)[1..] == a[1..] + b;
      RunAppend(Step(s, a[0]), a[1..], b);
    }
  }

  /** As written, the exit cancels the scope, readers included, so a line
      that arrives after the waiter has seen the exit is never published:
      whatever happened before, the outputs stop where they were. */
  lemma LineAfterExitDropped(s: Session, pre: seq<Event>, code: Int32, post: seq<Event>)
    requires WaiterLive(Run(s, pre))
    ensures Run(s, pre + [ProcessExited(code)] + post).outputs == Run(s, pre).outputs
    ensures Run(s, pre + [ProcessExited(code)] + post).state == Completed(code)
  {
    var r := Run(s, pre);
    assert pre + [ProcessExited(code)] + post == pre + ([ProcessExited(code)] + post);
    RunAppend(s, pre, [ProcessExited(code)] + post);
    assert ([ProcessExited(code)] + post)[1..] == post;
    ExitIsFinal(r, code, post);
  }

  /** The same "hello" script when the waiter sees the exit first: the line
      is lost. */
  lemma HelloAfterExitLost()
    ensures StartProcess(Fresh, Launched).Success?
    ensures var r := Run(StartProcess(Fresh, Launched).value.session,
                         [ProcessExited(0), Line(Output.Emission(Output.Stdout, "hello"))]);
            r.outputs == [] && r.state == Completed(0)
  {
  }

  /** The exit handled so that the readers drain the pipes: the waiter
      records `Completed` but leaves the scope alone. Every other event is
      handled as before. */
  function StepDrained(s: Session, e: Event): (r: Session)
    ensures !e.ProcessExited? ==> r == Step(s, e)
    ensures ReadersLive(s) && !e.Cancel? && !e.ReadError? ==> ReadersLive(r)
    ensures e.ProcessExited? && WaiterLive(s) && s.state.Running? ==> r.state == Completed(e.code)
    ensures e.ProcessExited? ==> r.outputs == s.outputs
  {
    match e
    case ProcessExited(code) =>
      if WaiterLive(s) && s.state.Running? then s.(state := Completed(code)) else s
    case _ => Step(s, e)
  }

  function RunDrained(s: Session, es: seq<Event>): Session
    decreases |es|
  {
    if |es| == 0 then s else RunDrained(StepDrained(s, es[0]), es[1..])
  }

  /** With draining readers, every line emitted before a cancel or a read
      error is published, in arrival order, whether it comes before or
      after the exit. */
  lemma {:induction false} DrainedPublishesAllLines(s: Session, es: seq<Event>)
    requires ReadersLive(s)
    requires forall i :: 0 <= i < |es| ==> !es[i].Cancel? && !es[i].ReadError?
    ensures RunDrained(s, es).outputs == s.outputs + Output.Texts(Emitted(es))
    decreases |es|
  {
    if |es| > 0 {
      var r := StepDrained(s, es[0]);
      if !es[0].ProcessExited? {
        StepOutputs(s, es[0]);
      }
      assert r.outputs == s.outputs + Output.Texts(Emitted([es[0]]));
      DrainedPublishesAllLines(r, es[1..]);
      EmittedPrefix(es, |es| - 1);
      assert es[..|es|] == es && es[1..][..|es| - 1] == es[1..];
      TextsAppend(Emitted([es[0]]), Emitted(es[1..]));
    }
  }

  /** With draining readers, "hello" is published whichever of the line
      and the exit comes first. */
  lemma HelloScenarioDrained()
    ensures StartProcess(Fresh, Launched).Success?
    ensures var s := StartProcess(Fresh, Launched).value.session;
      var hello := Line(Output.Emission(Output.Stdout, "hello"));
      && RunDrained(s, [hello, ProcessExited(0)]).outputs == ["hello"]
      && RunDrained(s, [ProcessExited(0), hello]).outputs == ["hello"]
      && RunDrained(s, [hello, ProcessExited(0)]).state == Completed(0)
      && RunDrained(s, [ProcessExited(0), hello]).state == Completed(0)
  {
    var s := StartProcess(Fresh, Launched).value.session;
    var hello := Line(Output.Emission(Output.Stdout, "hello"));
    var s1 := StepDrained(s, hello);
    assert s1.outputs == ["hello"] && s1.state == Running && WaiterLive(s1);
    assert [hello, ProcessExited(0)][1..] == [ProcessExited(0)];
    assert RunDrained(s, [hello, ProcessExited(0)]) == RunDrained(s1, [ProcessExited(0)]);
  }
}

=== FILE: supervisor.dfy ===
/** `SingleInstanceScriptRunner` (script/ScriptRunner.kt): a one-slot
    supervisor around another runner. Sessions are identified by the order
    they were issued in, so `sessions[i]` is the i-th session the delegate
    handed out and `current` indexes the one currently installed. The
    delegate's answer (a new session, or the `IOException` it threw) is an
    input. */
module Supervisor {
  import opened Wrappers
  import opened ScriptTypes
  import Session

  type SessionId = nat

  datatype Supervisor = Supervisor(current: Option<SessionId>, sessions: seq<Session.Session>)

  /** A new supervisor: no current session. */
  const Init: Supervisor := Supervisor(None, [])

  /** The supervisor invariant: the current session, if any, is the latest
      one issued, and every other session has been cancelled. */
  predicate Valid(sup: Supervisor)
  {
    && (sup.current.None? <==> |sup.sessions| == 0)
    && (sup.current.Some? ==> sup.current.value == |sup.sessions| - 1)
    && (forall i :: 0 <= i < |sup.sessions| && sup.current != Some(i) ==> sup.sessions[i].cancelled)
  }

  /** The state of the current session, `null` when there is none: the
      state of the latest session issued, and `null` only before the first. */
  function CurrentState(sup: Supervisor): (st: Option<ExecutionState>)
    requires Valid(sup)
    ensures st.None? <==> |sup.sessions| == 0
    ensures st.Some? ==> st.value == sup.sessions[|sup.sessions| - 1].state
  {
    match sup.current
    case None => None
    case Some(id) => Some(sup.sessions[id].state)
  }

  datatype Outcome = Outcome(sup: Supervisor, result: Result<SessionId, Cause>)

  /** `startSession`: cancel the current session, if any, then ask the
      delegate for a new one; install it if it came, otherwise let the
      delegate's exception through with the old session still installed. */
  function StartSession(sup: Supervisor, made: Result<Session.Session, Cause>): (r: Outcome)
    requires Valid(sup)
    ensures Valid(r.sup)
    ensures |r.sup.sessions| == |sup.sessions| + (if made.Success? then 1 else 0)
    ensures forall i :: 0 <= i < |sup.sessions| ==>
      r.sup.sessions[i] == if sup.current == Some(i) then Session.CancelSession(sup.sessions[i]) else sup.sessions[i]
    ensures made.Success? ==>
      && r.result == Success(|sup.sessions|)
      && r.sup.current == Some(|sup.sessions|)
      && r.sup.sessions[|sup.sessions|] == made.value
    ensures made.Failure? ==> r.result == Failure(made.error) && r.sup.current == sup.current
  {
    var sessions := match sup.current
      case None => sup.sessions
      case Some(id) => sup.sessions[id := Session.CancelSession(sup.sessions[id])];
    match made
    case Success(s) => Outcome(Supervisor(Some(|sessions|), sessions + [s]), Success(|sessions|))
    case Failure(e) => Outcome(Supervisor(sup.current, sessions), Failure(e))
  }

  /** Something happens inside one issued session. */
  function Deliver(sup: Supervisor, id: SessionId, e: Session.Event): (r: Supervisor)
    requires Valid(sup) && id < |sup.sessions|
    ensures Valid(r)
    ensures r.current == sup.current && |r.sessions| == |sup.sessions|
    ensures forall i :: 0 <= i < |sup.sessions| && i != id ==> r.sessions[i] == sup.sessions[i]
    ensures r.sessions[id] == Session.Step(sup.sessions[id], e)
  {
    sup.(sessions := sup.sessions[id := Session.Step(sup.sessions[id], e)])
  }

  /** Whatever the supervisor sees: run requests answered by the delegate,
      and events inside issued sessions. */
  datatype Op = Start(made: Result<Session.Session, Cause>) | Inside(id: SessionId, event: Session.Event)

  function Apply(sup: Supervisor, op: Op): Supervisor
    requires Valid(sup)
  {
    match op
    case Start(made) => StartSession(sup, made).sup
    case Inside(id, e) => if id < |sup.sessions| then Deliver(sup, id, e) else sup
  }

  function ApplyAll(sup: Supervisor, ops: seq<Op>): (r: Supervisor)
    requires Valid(sup)
    ensures Valid(r)
    decreases |ops|
  {
    if |ops| == 0 then sup else ApplyAll(Apply(sup, ops[0]), ops[1..])
  }

  /** A fresh supervisor has no current session. */
  lemma InitHasNoSession()
    ensures Valid(Init) && CurrentState(Init) == None
  {
  }

  /** After any history that started from a fresh supervisor, every session
      issued before the current one has been cancelled, and with no current
      session none was ever issued. */
  lemma {:induction false} EarlierSessionsCancelled(ops: seq<Op>)
    ensures var sup := ApplyAll(Init, ops);
      && (sup.current.None? ==> sup.sessions == [])
      && (sup.current.Some? ==> forall i :: 0 <= i < sup.current.value ==> sup.sessions[i].cancelled)
  {
    var sup := ApplyAll(Init, ops);
    if sup.current.Some? {
      forall i | 0 <= i < sup.current.value
        ensures sup.sessions[i].cancelled
      {
        assert sup.current != Some(i);
      }
    }
  }

  /** Starting a session never leaves two sessions live: afterwards at most
      the new one is uncancelled. */
  lemma StartLeavesOneLive(sup: Supervisor, made: Result<Session.Session, Cause>)
    requires Valid(sup)
    ensures var r := StartSession(sup, made).sup;
      forall i :: 0 <= i < |sup.sessions| ==> r.sessions[i].cancelled
  {
  }

  /** Starting never writes any session's state: cancellation does not turn
      a session `Failed`, nor undo a `Completed`. */
  lemma StartKeepsStates(sup: Supervisor, made: Result<Session.Session, Cause>)
    requires Valid(sup)
    ensures var r := StartSession(sup, made).sup;
      forall i :: 0 <= i < |sup.sessions| ==> r.sessions[i].state == sup.sessions[i].state
  {
  }
}

=== FILE: wrappers.dfy ===
/** The two wrappers used across the model: a nullable reference becomes an
    `Option`, a thrown exception becomes a `Result.Failure`. */
module Wrappers {

  datatype Option<+T> = None | Some(value: T) {

    /** Kotlin's elvis operator `x ?: default`. */
    function GetOr(default: T): T
    {
      match this
      case Some(v) => v
      case None => default
    }
  }

  datatype Result<+T, +E> = Success(value: T) | Failure(error: E)
}
